=== FILE: README.md ===
# bottle-inject: a Dafny model of the injection core

`bottle_inject.py` is a small dependency-injection library for the Bottle web framework.
Callables declare *injection points*. A required parameter is an implicit point named after
itself. A parameter whose default value or annotation is an `inject(name, *args, **kwargs)`
marker is an explicit point. An `Injector` keeps a registry from point names to *resolvers*,
which are callables that return providers. `call_inject(func, ...)` calls `func` and fills
every injectable keyword the caller did not pass with the value of a cached producer.

This project models:

- the marker `_InjectionPoint` and its equality;
- `_unwrap` and `Injector.inspect`;
- the registry operations `add_value`, `add_provider`, `add_resolver` and `remove`;
- the null resolver `_make_null_resolver`;
- the resolution engine: `_ProviderCache.__missing__`, `_resolve`, `_prime`, `call_inject` and `wrap`.

It then proves properties of that model.

Modules, one per file:

- `Wrappers`: `Option` and `Result`.
- `Dict`: ordered Python dictionaries as key/value sequences. `d[k] = v` keeps an existing key
  in place and appends a new one.
- `Values`: points, markers, signatures, callables and the exceptions raised.
  - A callable is a user function with an identity, a signature and an optional
    `__wrapped__`.
  - It can also be a class with its `__init__`, a null resolver, a `lambda: value`, or the
    wrapper built by `wrap`.
- `Inspection`: `_unwrap`, `inspect` with a reference definition of what it returns, and
  `inspect` as written on the tuple `inspect.getfullargspec` returns.
- `Registry`: the `Injector` state (resolvers, provider cache, exclusion list) and its mutations.
- `Engine`: `call_inject`, the cache lookup, `_resolve`, `_prime`, `wrap`.
  - User code is a parameter: an *oracle* maps a callable and its arguments to a value or an
    exception.
  - Every call of a callable that is not the engine's own wrapper is appended to a call log.
    That is how "called once" and "never called" are stated.
  - Nested resolution is bounded by a `fuel` argument that stands for Python's recursion limit.
- `Properties`: lemmas relating the engine to the registry, the cache and the call log.
- `Scenarios`: concrete callables from the test suite and from the findings below.

## Model

| member | source | states |
|---|---|---|
| Dict.Put | bottle_inject.py:161 | After `d[k] = v`, `k` maps to `v` and every other key keeps its value or stays absent |
| Dict.PutKeys | bottle_inject.py:157-175 | Assignment keeps the insertion order of the keys: an existing key stays in place, a new key goes last |
| Dict.PutKeepsDistinct | bottle_inject.py:157-175 | Assignment never creates a duplicate key |
| Values.MakePoint | bottle_inject.py:20-23 | A missing or empty argument list becomes `()` and a missing or empty configuration becomes `{}`; the name is kept |
| Values.PointEquals | bottle_inject.py:25-28 | Comparing the attribute dictionaries of two points is exactly equality of the markers; an object that is not a point is never equal |
| Values.BareInjectEqualsDefaultPoint | bottle_inject.py:20-28 | `_InjectionPoint(name)` equals `inject(name)`, whether its arguments are absent or given empty |
| Values.Inject | bottle_inject.py:267-284 | `inject` returns a marker whose point carries the name, the positional arguments and the keyword arguments |
| Values.InjectEquality | bottle_inject.py:20-28 | Two `inject(...)` markers compare equal exactly when they were built from the same name, the same positional arguments and the same keyword arguments |
| Inspection.Chase | bottle_inject.py:45-46 | The result has no `__wrapped__`; an object without one is returned unchanged |
| Inspection.Unwrap | bottle_inject.py:42-47 | A class is replaced by its `__init__`; then the `__wrapped__` chain is followed to an object that has none |
| Inspection.AddImplicit | bottle_inject.py:159-161 | After the loop every required, non-excluded name maps to its implicit point; every other name keeps its earlier entry |
| Inspection.AddMarkers | bottle_inject.py:163-173 | After a loop, a name maps to the last marker given for it if any; names without a marker keep their earlier entry |
| Inspection.AddImplicitKeepsDistinct | bottle_inject.py:157-161 | The first loop never creates a duplicate key |
| Inspection.AddMarkersKeepsDistinct | bottle_inject.py:163-173 | The marker loops never create a duplicate key |
| Inspection.LastMarkerOfReverse | bottle_inject.py:163-165 | In a walk over the defaults backwards where the last marker wins, the marker that wins is the first one in declaration order |
| Inspection.InspectSignatureMeetsExpected | bottle_inject.py:155-175 | The four loops give each name the entry of the reference definition: annotation marker, else keyword-only default marker, else positional default marker, else an implicit point for a required non-excluded parameter, else none |
| Inspection.Inspect | bottle_inject.py:145-175 | `inspect` returns a dictionary, so no key repeats, and for every name it agrees with the reference definition on the unwrapped callable's signature; defaulted, `*args` and `**kwargs` parameters without a marker get no entry |
| Inspection.InspectSeesThroughWrapper | bottle_inject.py:45-47 | A callable with `__wrapped__` inspects like the object it wraps, unless that object is a class |
| Inspection.InspectOfChainEnd | bottle_inject.py:45-47 | A chain of wrappers inspects like the function at its end |
| Inspection.InspectOfClass | bottle_inject.py:43-44 | A class inspects like its `__init__` |
| Inspection.ZipBackwards | bottle_inject.py:163 | Zipping the parameter names and the default values, both reversed, pairs each default with its own parameter, last to first |
| Inspection.ArgSpecSplit | bottle_inject.py:155-163 | The slice `args[:len(args) - len(defaults)]` is exactly the required parameters, and the backward zip visits the defaulted ones in reverse |
| Inspection.InspectAsWrittenAgrees | bottle_inject.py:149-175 | Read line by line on Python 3, `inspect` fails exactly when the callable has no keyword-only defaults; otherwise it returns what `Inspect` returns |
| Registry.NewInjector | bottle_inject.py:60-63 | A new injector has no resolvers and an empty cache; its exclusion list is exactly the one-letter names `s`, `e`, `l` and `f`, so it does not hold the word `self` |
| Registry.NewInjectorIntended | bottle_inject.py:60-63 | With the intended exclusion list, exactly the name `self` is excluded |
| Registry.BindAll | bottle_inject.py:103-106 | Every listed name is bound to the callable; every other name keeps its binding or stays unbound |
| Registry.AddResolver | bottle_inject.py:91-107 | The name and every alias are bound to the resolver, overwriting earlier bindings; other names are unchanged; the cache is emptied; the exclusion list is kept |
| Registry.AddProvider | bottle_inject.py:77-89 | The name and aliases are bound to the null resolver for the provider; nothing else changes except that the cache is emptied |
| Registry.AddValue | bottle_inject.py:65-75 | The name and aliases are bound to a null resolver whose provider returns the value |
| Registry.Remove | bottle_inject.py:109-115 | Removing an unbound name raises `KeyError`; otherwise only that name is unbound and the cache is emptied |
| Engine.Wrap | bottle_inject.py:210-241 | `wrap(f) is f` exactly when `f` has no injection points; when `f` is not a class, the wrapper inspects like `f` |
| Engine.CallLeaf | bottle_inject.py:50-56 | The null resolver succeeds exactly when called without arguments and then returns its provider; otherwise it raises naming the name the provider was registered with, which for an alias is the primary name, not the alias. `lambda: value` accepts no arguments and returns the value |
| Engine.Invoke | bottle_inject.py:232-238 | Calling any callable keeps the registry, never changes or removes a cache entry, only extends the call log, and preserves cache soundness |
| Engine.CallInjectMethod | bottle_inject.py:201 | Calling the method `call_inject` with a keyword `func` or `self` raises `TypeError` (multiple values for that argument) before any lookup or call, and changes nothing |
| Engine.CallInject | bottle_inject.py:201-208 | The body of `call_inject`, which the wrapper of `wrap` inlines, keeps the registry, never changes or removes a cache entry, only extends the call log, and preserves cache soundness |
| Engine.Lookup | bottle_inject.py:37-39 | A cached entry is returned as is and the state is untouched; after a successful lookup the callable is cached with the returned entry |
| Engine.StoreEvolves | bottle_inject.py:37-39 | Storing a complete entry for an uncached callable keeps every invariant of the engine |
| Engine.Resolve | bottle_inject.py:177-186 | A successful resolution has one provider per injection point of `inspect`, in the same order |
| Engine.PrimeAll | bottle_inject.py:183-186 | A successful loop has exactly the keys of the points it was given, in their order; what it stores under each key is stated by `Properties.PrimeAllEntries` |
| Engine.Prime | bottle_inject.py:188-199 | A name without a resolver raises the unresolved error and changes nothing; with a resolver, a configuration holding a key `func` or `self` makes the call of `call_inject` raise `TypeError` before any resolver runs, and changes nothing |
| Properties.PrimeAllEntries | bottle_inject.py:183-186 | Under the key of each injection point, a successful resolution stores exactly what `_prime` returned for that point, primed in the state the points before it left |
| Properties.PrimeOfValue | bottle_inject.py:188-199 | `_prime` of a bare point whose name `add_value` bound yields `lambda: value` itself, which `wrap` leaves unchanged |
| Properties.PrimeAllValues | bottle_inject.py:177-186 | When every point is bare (no parameters, no configuration) and its name is bound by `add_value`, resolution succeeds and stores under each key the provider of the value bound to that point's name |
| Properties.LookupOfValues | bottle_inject.py:37-39 | On a miss with every point bare and its name bound by `add_value`, the entry stored and returned holds, in `inspect` order, each point's key with the provider of its bound value; the registry is untouched |
| Properties.FillWithValues | bottle_inject.py:205-207 | Filling from value providers succeeds, leaves the injector alone, keeps the caller's keywords and gives every other injectable parameter its bound value |
| Properties.CallInjectInjectsValues | bottle_inject.py:201-208 | When every injection point is bound by `add_value`, `call_inject` calls the callable with the caller's arguments and keywords, and every injectable parameter the caller did not pass receives exactly the value bound to its point; that call is the last one made and the callable is now cached |
| Engine.Fill | bottle_inject.py:205-207 | The filled keywords hold every explicit keyword with its value, and add only keys of the cached entry |
| Properties.BuiltinsHaveNoPoints | bottle_inject.py:50-56 | The null resolver and `lambda: value` have no injection points |
| Properties.LookupWithoutPoints | bottle_inject.py:37-39 | A callable without injection points gets an empty entry and makes no call |
| Properties.CallInjectWithoutPoints | bottle_inject.py:201-208 | `call_inject` on a callable without injection points is a plain call with the caller's arguments |
| Properties.PrimeThroughNullResolver | bottle_inject.py:188-199 | A point bound by `add_provider` raises `TypeError` when its configuration has a key `func` or `self`; otherwise it fails naming the dependency when it carries parameters or configuration; a bare point yields the provider, wrapped |
| Properties.FillWithLeafProducers | bottle_inject.py:205-207 | The loop calls, in entry order, each producer whose key the caller did not pass, each exactly once, and no other; it succeeds exactly when those calls do; the filled keywords keep explicit values and hold each producer's value otherwise; when a producer raises, the log has gained only the producer calls up to it, in order |
| Properties.FillCallsProducers | bottle_inject.py:205-207 | Whatever the outcome, the loop's calls are, in order, a prefix of the producer calls it makes when every producer succeeds, and nothing else |
| Properties.CallInjectOnCacheHit | bottle_inject.py:201-208 | On a cached callable, `call_inject` changes only the call log: the producers of the missing keys, then `func` with the filled keywords; it returns what `func` returns; when a producer raises, the call fails and the log has gained only a prefix of those producer calls |
| Properties.CallInjectStoresEntry | bottle_inject.py:37-39 | After a successful `call_inject` the callable's complete entry is in the cache |
| Properties.LookupReusesEntry | bottle_inject.py:37-39 | Once stored, an entry is what every later lookup returns, with no further resolution, until the registry changes |
| Properties.SecondCallResolvesNothing | bottle_inject.py:201-208 | A second `call_inject` of a callable whose first call succeeded runs no resolver and leaves the registry and cache as they were; it calls only the producers of the keys not passed, in order, and the callable when none raises; when one raises, the call fails and the log has gained only a prefix of those producer calls |
| Properties.PrimeAllFailsOnUnbound | bottle_inject.py:183-196 | Resolution fails if any injection point's name has no resolver |
| Properties.RemovedNameIsUnresolved | bottle_inject.py:109-115 | After `remove(name)`, calling any callable with a point named `name` fails |
| Properties.AliasesResolveAlike | bottle_inject.py:103-106 | A point named by an alias resolves exactly as one named by the primary name |
| Properties.UserCallIsLast | bottle_inject.py:201-208 | When the body of `call_inject` succeeds on user code, the last call made is `func` itself with the caller's positional arguments and all the caller's keywords, and the result is what that call returned |
| Properties.PrimeCallsResolver | bottle_inject.py:194-199 | On success the configuration has no key `func` or `self`, and the last call made is the user's resolver, with the point's parameters and configuration; `_prime` returns the provider the resolver returned, wrapped |
| Properties.WrapAgreesWithCallInject | bottle_inject.py:201-241 | Calling `wrap(f)` has the same result and makes the same calls as the body of `call_inject(f, ...)`; it agrees with the method `call_inject` whenever no keyword is `func` or `self`; with such a keyword the method raises `TypeError`, while the wrapper passes the keyword on to `f` when resolution succeeds |
| Scenarios.InspectionExampleAsWritten | tests.py:10-12 | The inspection example of the test suite, which has no keyword-only parameters, makes `inspect` as written fail |
| Scenarios.ValueTestPoints | tests.py:25 | The value test's function has two injection points, `val` and `other`, both for the name `val` |
| Scenarios.RequiredAndMarkerPoints | bottle_inject.py:155-175 | A required parameter and a defaulted parameter whose default is a marker are the only injection points, in that order |
| Scenarios.ValueIsInjected | tests.py:21-30 | After `add_value('val', v)`, calling the value test's function with no arguments passes exactly `v` as both `val` and `other`, for every `v` |
| Scenarios.SelfIsInjectedAsWritten | bottle_inject.py:63 | With the exclusion list as written, a class whose `__init__(self, *, n=0)` has the injection point `self`; this holds for `inspect` read line by line as well as for the corrected reading |
| Scenarios.SelfOnlyFailsAsWritten | bottle_inject.py:63 | With that list, calling that class through an empty injector fails with the unresolved name `self` |
| Scenarios.SelfOnlyCalledAsIntended | bottle_inject.py:63 | With the intended list, the class is called directly with no arguments and returns what it returns |

## Left out

- `Plugin`, `setup` and `apply` depend on Bottle's request/response objects and routing, so they are not modelled.
- The `provider` and `resolver` decorators only assert the name is a `str` and call `add_provider`/`add_resolver`, so they are not modelled.
- Python reflection is not modelled. A signature is given structurally: required parameters, defaulted parameters with their defaults, `*args`, keyword-only defaults, `**kwargs`, annotations.
- The Python 2 branch of `inspect` (`getargspec`) is not modelled.
- Keyword-only parameters without a default are not represented, because `inspect` never looks at them.
- User callables are not executed. An oracle answers each call. That makes user code deterministic and free of side effects on the injector.
- A resolver or provider that re-enters the injector (registering or removing names while being resolved) is not modelled.
- Callables are compared by value, not identity. Two distinct function objects with the same identity number, signature and wrapper share a cache key.
- Engine.CallInject: Python's recursion limit is modelled as `fuel`. Each nested `call_inject` through the wrapper or `_prime` costs one unit, and running out raises `RecursionLimit`.
- Engine.CallInject: a clash between a positional argument of `func` and a filled keyword (Python's `TypeError: got multiple values`) is left to the oracle.
- Engine.CallInject: the lemmas of `Properties` and `Scenarios` about `call_inject` are stated for its body. The method is that body whenever no keyword is `func` or `self` (`Properties.CallInjectMethodRuns`), and raises `TypeError` otherwise; every scenario calls it without keywords.
- Engine.CallInjectMethod: the `TypeError` does not say which of `func` and `self` clashed.
- Engine.Prime: a resolver returning a non-callable fails at once with `NotCallable`. In Python the error comes from the reflection inside `wrap`.
- Engine.Lookup: "no partial entry after a failure" is stated as cache soundness: every entry lists exactly the callable's injection points. That the failed callable itself stays uncached is not stated.
- Properties.FillWithLeafProducers: producers are assumed to be plain callables, not engine wrappers. A provider with injection points of its own is covered by `WrapAgreesWithCallInject` instead.
- Properties.CallInjectOnCacheHit: limited to a cached callable whose producers are plain callables, and `func` is not an engine wrapper. For a wrapper, `call_inject` looks up the wrapper's own entry and the wrapper then looks up the wrapped function's (line 235); `WrapAgreesWithCallInject` relates the two.
- Properties.PrimeCallsResolver: limited to a resolver that is user code. A resolver registered as `wrap(r)` logs its last call as one to `r`, because the engine's wrappers are not logged; `WrapAgreesWithCallInject` covers it.
- Properties.SecondCallResolvesNothing: limited to a plain callable whose cached producers are plain callables. A wrapped provider that the first call skipped, because the caller passed its key, may still resolve its own points on the second call.
- Properties.CallInjectInjectsValues: limited to a callable that is not cached yet and all of whose points are bare and bound by `add_value`, and `func` is not an engine wrapper; on a cache hit `CallInjectOnCacheHit` applies.
- Engine, Properties and Scenarios use the corrected `Inspect`, which reads a missing `kwonlydefaults` as `{}`. Read line by line on Python 3, line 167 raises `AttributeError` for every callable without keyword-only defaults, including the null resolver `(*a, **ka)` and `lambda: value`. Every `call_inject`, `wrap` and `_prime` of such a callable therefore fails. `Inspection.InspectAsWrittenAgrees` states exactly when.
- Inspection.Chase: a cyclic `__wrapped__` chain, such as `f.__wrapped__ = f`, makes `_unwrap` loop forever at lines 45-46. The inductive `Callable` cannot represent such a chain, which is why `Chase` terminates.
- Inspection.InspectSeesThroughWrapper: a `__wrapped__` chain that ends at a class is left out. `_unwrap` does not replace such a class by its `__init__`, and the model keeps that.
- Registry.Remove: every callable the model represents is truthy, so the falsy-resolver branch (the cache not cleared) cannot happen.
- Registry.AddResolver: `alias` is a sequence of names. The assertion that each alias is a `str` is not modelled, and neither is passing a single string, which would iterate over its characters.
- Values.MakePoint: `parameters` and `config` are kept as given, so a list and a tuple with the same elements are the same point. In Python they compare unequal.
- Concurrency, the `functools.wraps` metadata and `__injector__` are not modelled.

## Findings

| source | as written | input that shows it | evidently intended | confidence | as-written member | corrected member |
|---|---|---|---|---|---|---|
| bottle_inject.py:63 | `set('self')` is the set of the letters `s`, `e`, `l`, `f`, so the parameter `self` is not excluded, while parameters named `s`, `e`, `l` or `f` are | a class with `__init__(self, *, n=0)`, whose keyword-only default lets line 167 pass: `inspect` gives it the point `self`, and `call_inject` raises "Could not resolve provider for injection point 'self'" | `{'self'}`, excluding the word | high, not executed | Scenarios.SelfOnlyFailsAsWritten | Scenarios.SelfOnlyCalledAsIntended |
| bottle_inject.py:167 | on Python 3, `getfullargspec` reports `kwonlydefaults` as `None` when no keyword-only parameter has a default, and `None.items()` raises `AttributeError` | the function `test` of tests.py:11, which has no keyword-only parameters | treat a missing `kwonlydefaults` as `{}`, as line 155 does for `defaults` | high, not executed | Inspection.InspectAsWrittenAgrees | Inspection.Inspect |

=== FILE: dict.dfy ===
/** Python dictionaries keyed by names whose iteration order matters, as sequences of
    key/value pairs. `Put` follows `d[k] = v`: an existing key keeps its position and gets
    the new value, a new key is appended at the end. */
module Dict {
  import opened Wrappers

  type Dict<V> = seq<(string, V)>

  /** The keys in iteration order. */
  function Keys<V>(d: Dict<V>): (ks: seq<string>)
    ensures |ks| == |d|
    ensures forall i :: 0 <= i < |d| ==> ks[i] == d[i].0
  {
    seq(|d|, i requires 0 <= i < |d| => d[i].0)
  }

  /** The keys of a non-empty dictionary: its first key, then the keys of the rest. */
  lemma KeysSplit<V>(d: Dict<V>)
    requires d != []
    ensures Keys(d) == [d[0].0] + Keys(d[1..])
  {
  }

  /** The keys of a dictionary with one pair in front. */
  lemma KeysCons<V>(p: (string, V), d: Dict<V>)
    ensures Keys([p] + d) == [p.0] + Keys(d)
  {
    KeysSplit([p] + d);
    assert ([p] + d)[1..] == d;
  }

  /** No name occurs twice. */
  predicate Distinct(ks: seq<string>) {
    forall i, j :: 0 <= i < j < |ks| ==> ks[i] != ks[j]
  }

  /** No key occurs twice, as in any real dictionary. */
  predicate DistinctKeys<V>(d: Dict<V>) {
    Distinct(Keys(d))
  }

  /** `d.get(k)`: the value stored under `k`, or nothing when `k` is absent. */
  function Get<V>(d: Dict<V>, k: string): (r: Option<V>)
    ensures r.None? <==> k !in Keys(d)
    ensures r.Some? ==> (k, r.value) in d
  {
    if d == [] then None
    else if d[0].0 == k then Some(d[0].1)
    else Get(d[1..], k)
  }

  /** In a dictionary without duplicate keys, the key at any position finds the value there. */
  lemma GetAt<V>(d: Dict<V>, i: nat)
    requires DistinctKeys(d) && i < |d|
    ensures Get(d, d[i].0) == Some(d[i].1)
  {
    var k := d[i].0;
    assert Keys(d)[i] == k;
    var r := Get(d, k);
    var j :| 0 <= j < |d| && d[j] == (k, r.value);
    assert Keys(d)[j] == k;
  }

  /** `d[k] = v`. */
  function Put<V>(d: Dict<V>, k: string, v: V): (r: Dict<V>)
    ensures Get(r, k) == Some(v)
    ensures forall j :: j != k ==> Get(r, j) == Get(d, j)
  {
    if d == [] then [(k, v)]
    else if d[0].0 == k then [(k, v)] + d[1..]
    else
      var rest := Put(d[1..], k, v);
      var r := [d[0]] + rest;
      assert r[1..] == rest;
      r
  }

  /** Assigning to an existing key keeps the keys as they are. */
  lemma {:induction false} PutExistingKey<V>(d: Dict<V>, k: string, v: V)
    requires k in Keys(d)
    ensures Keys(Put(d, k, v)) == Keys(d)
  {
    KeysSplit(d);
    if d[0].0 == k {
      KeysCons((k, v), d[1..]);
    } else {
      var rest := Put(d[1..], k, v);
      PutExistingKey(d[1..], k, v);
      KeysCons(d[0], rest);
    }
  }

  /** Assigning to a new key appends it. */
  lemma {:induction false} PutNewKey<V>(d: Dict<V>, k: string, v: V)
    requires k !in Keys(d)
    ensures Keys(Put(d, k, v)) == Keys(d) + [k]
  {
    if d == [] {
      assert Keys(Put(d, k, v)) == [k];
    } else {
      var rest := Put(d[1..], k, v);
      KeysSplit(d);
      PutNewKey(d[1..], k, v);
      KeysCons(d[0], rest);
      assert [d[0].0] + (Keys(d[1..]) + [k]) == ([d[0].0] + Keys(d[1..])) + [k];
    }
  }

  /** Assignment keeps the order of the keys and appends a new one. */
  lemma PutKeys<V>(d: Dict<V>, k: string, v: V)
    ensures k in Keys(d) ==> Keys(Put(d, k, v)) == Keys(d)
    ensures k !in Keys(d) ==> Keys(Put(d, k, v)) == Keys(d) + [k]
  {
    if k in Keys(d) {
      PutExistingKey(d, k, v);
    } else {
      PutNewKey(d, k, v);
    }
  }

  /** Assignment never creates a duplicate key. */
  lemma PutKeepsDistinct<V>(d: Dict<V>, k: string, v: V)
    ensures DistinctKeys(d) ==> DistinctKeys(Put(d, k, v))
  {
    var ks := Keys(d);
    PutKeys(d, k, v);
    if DistinctKeys(d) && k !in ks {
      assert Keys(Put(d, k, v)) == ks + [k];
    }
  }
}

=== FILE: engine.dfy ===
/** Resolution and call-time injection: `_ProviderCache.__missing__`, `Injector._resolve`,
    `_prime`, `call_inject` and `wrap`, together with calling the callables they produce.

    Calls into user code are answered by an `Oracle`; every call the engine makes into a
    callable other than its own wrappers is appended to a call log, so that how often a
    resolver or provider runs can be read off the state. Python's unbounded recursion
    becomes `fuel`: each nested `call_inject` (through `_prime` or through a wrapper) spends
    one unit, and running out raises `RecursionLimit`. */
module Engine {
  import opened Wrappers
  import opened Dict
  import opened Values
  import opened Inspection
  import opened Registry

  /** One call made into a callable that is not one of the engine's own wrappers. */
  datatype Invocation = Invocation(callee: Callable, args: seq<Value>, kwargs: map<string, Value>)

  /** The injector together with the log of every call made so far. */
  datatype State = State(injector: Injector, calls: seq<Invocation>)

  /** What user code returns or raises for a call. */
  type Oracle = (Callable, seq<Value>, map<string, Value>) -> Result<Value, Error>

  /** An outcome together with the state it leaves: an exception does not undo the cache
      entries or calls made before it was raised. */
  datatype Step<T> = Step(result: Result<T, Error>, st: State)

  /** Every cache entry lists exactly the injectable parameters of its callable, in `inspect`
      order: a resolution that failed part way left no entry behind. */
  predicate CacheSound(inj: Injector) {
    forall f :: f in inj.cache ==> Keys(inj.cache[f]) == Keys(Inspect(inj.neverInject, f))
  }

  /** What every engine operation keeps: the registry and the exclusion list are untouched,
      cache entries are only added, never changed, the call log only grows, and soundness of
      the cache is preserved. */
  predicate Evolves(st: State, st': State) {
    && st'.injector.resolvers == st.injector.resolvers
    && st'.injector.neverInject == st.injector.neverInject
    && (forall f :: f in st.injector.cache ==> f in st'.injector.cache && st'.injector.cache[f] == st.injector.cache[f])
    && st.calls <= st'.calls
    && (CacheSound(st.injector) ==> CacheSound(st'.injector))
  }

  function Log(st: State, c: Callable, args: seq<Value>, kwargs: map<string, Value>): State {
    st.(calls := st.calls + [Invocation(c, args, kwargs)])
  }

  /** `wrap(func)`: `func` itself when it has no injection points, otherwise a wrapper whose
      every call performs `call_inject(func, ...)`. */
  function Wrap(never: set<string>, func: Callable): (r: Callable)
    ensures r == func <==> Inspect(never, func) == []
    ensures !func.Class? ==> Inspect(never, r) == Inspect(never, func)
  {
    if Inspect(never, func) == [] then func
    else
      assert func < Injecting(func);
      Injecting(func)
  }

  /** A callable the engine calls directly rather than through `call_inject`. */
  predicate Leaf(c: Callable) {
    !c.Injecting?
  }

  /** The outcome of calling a callable other than the engine's wrapper. The null resolver of
      `_make_null_resolver(name, provider)` refuses any argument and otherwise hands out
      `provider` itself; `lambda: value` accepts no argument and returns `value`; user code
      answers through the oracle. */
  function CallLeaf(c: Callable, args: seq<Value>, kwargs: map<string, Value>, oracle: Oracle): (r: Result<Value, Error>)
    requires Leaf(c)
    ensures c.NullResolver? ==> (r.Success? <==> args == [] && kwargs == map[])
    ensures c.NullResolver? && r.Success? ==> r.value == Fn(c.provider)
    ensures c.NullResolver? && r.Failure? ==> r.error == NotAResolver(c.name)
    ensures c.Constant? ==> (r.Success? <==> args == [] && kwargs == map[])
    ensures c.Constant? && r.Success? ==> r.value == c.value
  {
    match c
    case NullResolver(name, provider) =>
      if args != [] || kwargs != map[] then Failure(NotAResolver(name)) else Success(Fn(provider))
    case Constant(value) =>
      if args != [] || kwargs != map[] then Failure(UnexpectedArguments) else Success(value)
    case _ =>
      oracle(c, args, kwargs)
  }

  /** `c(*args, **kwargs)`: the engine's wrapper performs `call_inject` on the function it
      wraps; any other callable is called directly and the call is logged. */
  function Invoke(fuel: nat, st: State, c: Callable, args: seq<Value>, kwargs: map<string, Value>, oracle: Oracle): (r: Step<Value>)
    ensures Evolves(st, r.st)
    decreases fuel, 1, 0
  {
    if c.Injecting? then
      if fuel == 0 then Step(Failure(RecursionLimit), st)
      else CallInject(fuel - 1, st, c.func, args, kwargs, oracle)
    else Step(CallLeaf(c, args, kwargs, oracle), Log(st, c, args, kwargs))
  }

  /** The body of `call_inject(func, *args, **kwargs)`, which the wrapper of `wrap` inlines:
      look up the cached producers, call the producer of every parameter the caller did not
      pass by keyword, then call `func`. */
  function CallInject(fuel: nat, st: State, func: Callable, args: seq<Value>, kwargs: map<string, Value>, oracle: Oracle): (r: Step<Value>)
    ensures Evolves(st, r.st)
    decreases fuel, 5, 0
  {
    var entries := Lookup(fuel, st, func, oracle);
    if entries.result.Failure? then Step(Failure(entries.result.error), entries.st)
    else
      var filled := Fill(fuel, entries.st, entries.result.value, kwargs, oracle);
      if filled.result.Failure? then Step(Failure(filled.result.error), filled.st)
      else Invoke(fuel, filled.st, func, args, filled.result.value, oracle)
  }

  /** The keywords the method `call_inject(self, func, *a, **ka)` cannot take: its first two
      parameters are already bound, so Python rejects them before the body runs. */
  predicate Reserved(kwargs: map<string, Value>) {
    "func" in kwargs || "self" in kwargs
  }

  /** Calling the method `injector.call_inject(func, *args, **kwargs)`: a keyword named `func`
      or `self` raises `TypeError` (multiple values for an argument) before anything runs;
      otherwise the body runs. */
  function CallInjectMethod(fuel: nat, st: State, func: Callable, args: seq<Value>, kwargs: map<string, Value>, oracle: Oracle): (r: Step<Value>)
    ensures Evolves(st, r.st)
    ensures Reserved(kwargs) ==> r == Step(Failure(MultipleValues), st)
    decreases fuel, 6, 0
  {
    if Reserved(kwargs) then Step(Failure(MultipleValues), st)
    else CallInject(fuel, st, func, args, kwargs, oracle)
  }

  /** `cache[func]`: a stored entry is returned as is; on a miss `__missing__` resolves the
      callable and stores the entry only once the resolution has fully succeeded. */
  function Lookup(fuel: nat, st: State, func: Callable, oracle: Oracle): (r: Step<Entries>)
    ensures Evolves(st, r.st)
    ensures func in st.injector.cache ==> r == Step(Success(st.injector.cache[func]), st)
    ensures r.result.Success? ==> func in r.st.injector.cache && r.st.injector.cache[func] == r.result.value
    decreases fuel, 4, 0
  {
    if func in st.injector.cache then Step(Success(st.injector.cache[func]), st)
    else
      var resolved := Resolve(fuel, st, func, oracle);
      if resolved.result.Failure? then resolved
      else
        StoreEvolves(st, resolved.st, func, resolved.result.value);
        Step(resolved.result, Store(resolved.st, func, resolved.result.value))
  }

  /** `self[func] = value` in `__missing__`. */
  function Store(st: State, func: Callable, entries: Entries): State {
    st.(injector := st.injector.(cache := st.injector.cache[func := entries]))
  }

  /** Storing a complete entry for a callable that was missing keeps every earlier entry and
      the soundness of the cache. */
  lemma StoreEvolves(st: State, st': State, func: Callable, entries: Entries)
    requires Evolves(st, st') && func !in st.injector.cache
    requires Keys(entries) == Keys(Inspect(st.injector.neverInject, func))
    ensures Evolves(st, Store(st', func, entries))
  {
  }

  /** `_resolve(func)`: a producer for every injection point `inspect` finds, in its order. */
  function Resolve(fuel: nat, st: State, func: Callable, oracle: Oracle): (r: Step<Entries>)
    ensures Evolves(st, r.st)
    ensures r.result.Success? ==> Keys(r.result.value) == Keys(Inspect(st.injector.neverInject, func))
    decreases fuel, 3, 0
  {
    PrimeAll(fuel, st, Inspect(st.injector.neverInject, func), oracle)
  }

  /** The loop of `_resolve`: primes the points one after the other; the first failure ends it. */
  function PrimeAll(fuel: nat, st: State, points: Dict<InjectionPoint>, oracle: Oracle): (r: Step<Entries>)
    ensures Evolves(st, r.st)
    ensures r.result.Success? ==> Keys(r.result.value) == Keys(points)
    decreases fuel, 2, |points|
  {
    if points == [] then Step(Success([]), st)
    else
      var primed := Prime(fuel, st, points[0].1, oracle);
      if primed.result.Failure? then Step(Failure(primed.result.error), primed.st)
      else
        var rest := PrimeAll(fuel, primed.st, points[1..], oracle);
        if rest.result.Failure? then rest
        else
          KeysSplit(points);
          KeysCons((points[0].0, primed.result.value), rest.result.value);
          Step(Success([(points[0].0, primed.result.value)] + rest.result.value), rest.st)
  }

  /** `_prime(name, parameters, config)`: an unbound name raises; otherwise the resolver is
      called through the method `call_inject` with the point's parameters and configuration,
      so a configuration key `func` or `self` raises there, and the provider it returns is
      wrapped. */
  function Prime(fuel: nat, st: State, point: InjectionPoint, oracle: Oracle): (r: Step<Callable>)
    ensures Evolves(st, r.st)
    ensures point.name !in st.injector.resolvers ==> r == Step(Failure(Unresolved(point.name)), st)
    ensures point.name in st.injector.resolvers && fuel > 0 && Reserved(point.config) ==>
      r == Step(Failure(MultipleValues), st)
    decreases fuel, 1, 0
  {
    if point.name !in st.injector.resolvers then Step(Failure(Unresolved(point.name)), st)
    else if fuel == 0 then Step(Failure(RecursionLimit), st)
    else
      var resolver := st.injector.resolvers[point.name];
      var provided := CallInjectMethod(fuel - 1, st, resolver, point.parameters, point.config, oracle);
      if provided.result.Failure? then Step(Failure(provided.result.error), provided.st)
      else match provided.result.value
        case Fn(provider) => Step(Success(Wrap(provided.st.injector.neverInject, provider)), provided.st)
        case _ => Step(Failure(NotCallable), provided.st)
  }

  /** The loop of `call_inject`: for each cached `(key, producer)` whose key the caller did
      not pass, `producer()` is called and its value added under `key`. */
  function Fill(fuel: nat, st: State, entries: Entries, kwargs: map<string, Value>, oracle: Oracle): (r: Step<map<string, Value>>)
    ensures Evolves(st, r.st)
    ensures r.result.Success? ==> forall k :: k in kwargs ==> k in r.result.value && r.result.value[k] == kwargs[k]
    ensures r.result.Success? ==> forall k :: k in r.result.value <==> k in kwargs || k in Keys(entries)
    decreases fuel, 2, |entries|
  {
    if entries == [] then Step(Success(kwargs), st)
    else
      KeysSplit(entries);
      var key := entries[0].0;
      if key in kwargs then Fill(fuel, st, entries[1..], kwargs, oracle)
      else
        var produced := Invoke(fuel, st, entries[0].1, [], map[], oracle);
        if produced.result.Failure? then Step(Failure(produced.result.error), produced.st)
        else Fill(fuel, produced.st, entries[1..], kwargs[key := produced.result.value], oracle)
  }
}

=== FILE: inspection.dfy ===
/** Signature inspection: `_unwrap` and `Injector.inspect`, which map a callable to the
    injection points of its parameters, in the order a Python dict would list them. */
module Inspection {
  import opened Wrappers
  import opened Dict
  import opened Values

  /** Whether the object has a `__wrapped__` attribute. */
  predicate HasWrapped(c: Callable) {
    (c.Function? && c.wrapped.Some?) || c.Injecting?
  }

  /** The object `__wrapped__` refers to. */
  function WrappedOf(c: Callable): Callable
    requires HasWrapped(c)
  {
    if c.Injecting? then c.func else c.wrapped.value
  }

  /** Follows `__wrapped__` until an object without one is reached. */
  function Chase(c: Callable): (r: Callable)
    ensures !HasWrapped(r)
    ensures !HasWrapped(c) ==> r == c
  {
    if HasWrapped(c) then Chase(WrappedOf(c)) else c
  }

  /** `_unwrap`: a class stands for its `__init__`; then the `__wrapped__` chain is followed
      to its end. */
  function Unwrap(c: Callable): (r: Callable)
    ensures !HasWrapped(r)
    ensures c.Class? ==> r == Chase(c.init)
    ensures !c.Class? ==> r == Chase(c)
  {
    Chase(if c.Class? then c.init else c)
  }

  /** `null_resolver(*a, **ka)` and the wrapper `wrap` builds. */
  const Variadic := Signature([], [], Some("a"), [], Some("ka"), [])

  /** `lambda: value`. */
  const NoParameters := Signature([], [], None, [], None, [])

  /** The signature reflection reports for an object reached by `_unwrap`. For a class this is
      the signature of its `__init__` itself, without following `__wrapped__` again. */
  function SignatureOf(c: Callable): Signature {
    match c
    case Function(_, sig, _) => sig
    case Class(_, init) => SignatureOf(init)
    case NullResolver(_, _) => Variadic
    case Constant(_) => NoParameters
    case Injecting(_) => Variadic
  }

  /** `_InjectionPoint(arg)`: the point a required parameter implies, named after itself. */
  function Implicit(name: string): InjectionPoint {
    MakePoint(name, None, None)
  }

  /** The marker found for `k` among `(parameter, value)` pairs, the last one if several.
      A reference definition: a search, not a dictionary fold. */
  function LastMarker(pairs: Dict<Value>, k: string): (r: Option<InjectionPoint>)
    ensures r.Some? ==> (k, Marker(r.value)) in pairs
  {
    if pairs == [] then None
    else
      var later := LastMarker(pairs[1..], k);
      if later.Some? then later
      else if pairs[0].0 == k && pairs[0].1.Marker? then Some(pairs[0].1.point)
      else None
  }

  /** The marker found for `k` among `(parameter, value)` pairs, the first one if several. */
  function FirstMarker(pairs: Dict<Value>, k: string): (r: Option<InjectionPoint>)
    ensures r.Some? ==> (k, Marker(r.value)) in pairs
  {
    if pairs == [] then None
    else if pairs[0].0 == k && pairs[0].1.Marker? then Some(pairs[0].1.point)
    else FirstMarker(pairs[1..], k)
  }

  /** The first loop of `inspect`: each parameter without a default that is not excluded
      gets the implicit point named after it. */
  function AddImplicit(d: Dict<InjectionPoint>, names: seq<string>, never: set<string>): (r: Dict<InjectionPoint>)
    ensures forall k :: Get(r, k) == if k in names && k !in never then Some(Implicit(k)) else Get(d, k)
    decreases |names|
  {
    if names == [] then d
    else
      var d' := if names[0] in never then d else Put(d, names[0], Implicit(names[0]));
      AddImplicit(d', names[1..], never)
  }

  /** The other loops of `inspect`: each `(parameter, value)` whose value is a marker sets that
      parameter's entry, replacing any earlier one. */
  function AddMarkers(d: Dict<InjectionPoint>, pairs: Dict<Value>): (r: Dict<InjectionPoint>)
    ensures forall k :: Get(r, k) == if LastMarker(pairs, k).Some? then LastMarker(pairs, k) else Get(d, k)
    decreases |pairs|
  {
    if pairs == [] then d
    else
      var d' := if pairs[0].1.Marker? then Put(d, pairs[0].0, pairs[0].1.point) else d;
      AddMarkers(d', pairs[1..])
  }

  lemma {:induction false} AddImplicitKeepsDistinct(d: Dict<InjectionPoint>, names: seq<string>, never: set<string>)
    requires DistinctKeys(d)
    ensures DistinctKeys(AddImplicit(d, names, never))
    decreases |names|
  {
    if names != [] {
      PutKeepsDistinct(d, names[0], Implicit(names[0]));
      var d' := if names[0] in never then d else Put(d, names[0], Implicit(names[0]));
      AddImplicitKeepsDistinct(d', names[1..], never);
    }
  }

  lemma {:induction false} AddMarkersKeepsDistinct(d: Dict<InjectionPoint>, pairs: Dict<Value>)
    requires DistinctKeys(d)
    ensures DistinctKeys(AddMarkers(d, pairs))
    decreases |pairs|
  {
    if pairs != [] {
      if pairs[0].1.Marker? {
        PutKeepsDistinct(d, pairs[0].0, pairs[0].1.point);
      }
      var d' := if pairs[0].1.Marker? then Put(d, pairs[0].0, pairs[0].1.point) else d;
      AddMarkersKeepsDistinct(d', pairs[1..]);
    }
  }

  /** `s[::-1]`. */
  function Reverse<T>(s: seq<T>): (r: seq<T>)
    ensures |r| == |s|
    ensures forall i :: 0 <= i < |s| ==> r[i] == s[|s| - 1 - i]
  {
    seq(|s|, i requires 0 <= i < |s| => s[|s| - 1 - i])
  }

  /** Searching a reversed list for the last marker finds the first one of the original. */
  lemma {:induction false} LastMarkerOfReverse(pairs: Dict<Value>, k: string)
    ensures LastMarker(Reverse(pairs), k) == FirstMarker(pairs, k)
  {
    if pairs != [] {
      assert Reverse(pairs) == Reverse(pairs[1..]) + [pairs[0]];
      LastMarkerOfReverse(pairs[1..], k);
      LastMarkerAppend(Reverse(pairs[1..]), pairs[0], k);
    }
  }

  lemma {:induction false} LastMarkerAppend(pairs: Dict<Value>, last: (string, Value), k: string)
    ensures LastMarker(pairs + [last], k) ==
      if last.0 == k && last.1.Marker? then Some(last.1.point) else LastMarker(pairs, k)
  {
    if pairs != [] {
      assert (pairs + [last])[1..] == pairs[1..] + [last];
      LastMarkerAppend(pairs[1..], last, k);
    }
  }

  /** What `inspect` promises for parameter `k`: a marker annotation wins, then a marker
      keyword-only default, then a marker positional default; otherwise a required parameter
      that is not excluded gets its implicit point, and anything else gets no entry. */
  function Expected(sig: Signature, never: set<string>, k: string): Option<InjectionPoint> {
    var annotated := LastMarker(sig.annotations, k);
    var keywordOnly := LastMarker(sig.kwonlyDefaults, k);
    var positional := FirstMarker(sig.defaulted, k);
    if annotated.Some? then annotated
    else if keywordOnly.Some? then keywordOnly
    else if positional.Some? then positional
    else if k in sig.required && k !in never then Some(Implicit(k))
    else None
  }

  /** Lines 155-175 of `inspect` for one signature, with absent keyword-only defaults read as
      an empty dictionary. */
  function InspectSignature(sig: Signature, never: set<string>): (points: Dict<InjectionPoint>)
    ensures DistinctKeys(points)
  {
    var implicit := AddImplicit([], sig.required, never);
    AddImplicitKeepsDistinct([], sig.required, never);
    var fromDefaults := AddMarkers(implicit, Reverse(sig.defaulted));
    AddMarkersKeepsDistinct(implicit, Reverse(sig.defaulted));
    var fromKeywordOnly := AddMarkers(fromDefaults, sig.kwonlyDefaults);
    AddMarkersKeepsDistinct(fromDefaults, sig.kwonlyDefaults);
    AddMarkersKeepsDistinct(fromKeywordOnly, sig.annotations);
    AddMarkers(fromKeywordOnly, sig.annotations)
  }

  lemma InspectSignatureMeetsExpected(sig: Signature, never: set<string>, k: string)
    ensures Get(InspectSignature(sig, never), k) == Expected(sig, never, k)
  {
    var implicit := AddImplicit([], sig.required, never);
    var fromDefaults := AddMarkers(implicit, Reverse(sig.defaulted));
    var fromKeywordOnly := AddMarkers(fromDefaults, sig.kwonlyDefaults);
    LastMarkerOfReverse(sig.defaulted, k);
    assert Get(implicit, k) == if k in sig.required && k !in never then Some(Implicit(k)) else None;
    assert Get(fromDefaults, k) == if FirstMarker(sig.defaulted, k).Some? then FirstMarker(sig.defaulted, k) else Get(implicit, k);
  }

  /** `Injector.inspect(func)`: the injection points of the unwrapped callable. */
  function Inspect(never: set<string>, c: Callable): (points: Dict<InjectionPoint>)
    ensures DistinctKeys(points)
    ensures forall k :: Get(points, k) == Expected(SignatureOf(Unwrap(c)), never, k)
  {
    var sig := SignatureOf(Unwrap(c));
    forall k ensures Get(InspectSignature(sig, never), k) == Expected(sig, never, k) {
      InspectSignatureMeetsExpected(sig, never, k);
    }
    InspectSignature(sig, never)
  }

  /** `inspect(c)` agrees with `inspect` of whatever `c.__wrapped__` refers to, unless that is
      a class (a class reached through `__wrapped__` is not replaced by its `__init__`). */
  lemma InspectSeesThroughWrapper(never: set<string>, c: Callable)
    requires HasWrapped(c) && !WrappedOf(c).Class?
    ensures Inspect(never, c) == Inspect(never, WrappedOf(c))
  {
  }

  /** A whole chain of wrappers inspects like the function at its end. */
  lemma InspectOfChainEnd(never: set<string>, c: Callable)
    requires !c.Class? && !Chase(c).Class?
    ensures Inspect(never, c) == Inspect(never, Chase(c))
  {
  }

  /** A class inspects like its `__init__`. */
  lemma InspectOfClass(never: set<string>, id: nat, init: Callable)
    requires !init.Class?
    ensures Inspect(never, Class(id, init)) == Inspect(never, init)
  {
  }

  // ---------------------------------------------------------------------------------------
  // `inspect` as written, on the tuple `inspect.getfullargspec` returns.

  /** `inspect.getfullargspec(func)` on Python 3: `defaults` and `kwonlydefaults` are `None`
      rather than empty. */
  datatype ArgSpec = ArgSpec(
    args: seq<string>,
    varargs: Option<string>,
    varkw: Option<string>,
    defaults: Option<seq<Value>>,
    kwonlydefaults: Option<Dict<Value>>,
    annotations: Dict<Value>)

  /** `list(d.values())`. */
  function ValuesOf(pairs: Dict<Value>): (vs: seq<Value>)
    ensures |vs| == |pairs|
    ensures forall i :: 0 <= i < |pairs| ==> vs[i] == pairs[i].1
  {
    seq(|pairs|, i requires 0 <= i < |pairs| => pairs[i].1)
  }

  function FullArgSpec(sig: Signature): (spec: ArgSpec)
    ensures spec.defaults.Some? ==> |spec.defaults.value| <= |spec.args|
  {
    ArgSpec(
      sig.required + Keys(sig.defaulted),
      sig.varargs,
      sig.varkw,
      if sig.defaulted == [] then None else Some(ValuesOf(sig.defaulted)),
      if sig.kwonlyDefaults == [] then None else Some(sig.kwonlyDefaults),
      sig.annotations)
  }

  /** Python's `zip`, which stops at the shorter argument. */
  function Zip<A, B>(xs: seq<A>, ys: seq<B>): (r: seq<(A, B)>)
    ensures |r| == if |xs| < |ys| then |xs| else |ys|
    ensures forall i :: 0 <= i < |r| ==> r[i] == (xs[i], ys[i])
  {
    if xs == [] || ys == [] then [] else [(xs[0], ys[0])] + Zip(xs[1..], ys[1..])
  }

  /** `Injector.inspect` line by line on Python 3, where line 167 calls `.items()` on the
      `None` reported when no keyword-only parameter has a default. */
  function InspectAsWritten(never: set<string>, c: Callable): Result<Dict<InjectionPoint>, Error> {
    var spec := FullArgSpec(SignatureOf(Unwrap(c)));
    var defaults := if spec.defaults.Some? then spec.defaults.value else [];
    var implicit := AddImplicit([], spec.args[..|spec.args| - |defaults|], never);
    var fromDefaults := AddMarkers(implicit, Zip(Reverse(spec.args), Reverse(defaults)));
    if spec.kwonlydefaults.None? then Failure(NoKeywordOnlyDefaults)
    else
      var fromKeywordOnly := AddMarkers(fromDefaults, spec.kwonlydefaults.value);
      Success(AddMarkers(fromKeywordOnly, spec.annotations))
  }

  /** Reading `required + names` backwards starts with the names, last to first. */
  lemma ReverseArgsAt(required: seq<string>, defaulted: Dict<Value>, i: nat)
    requires i < |defaulted|
    ensures Reverse(required + Keys(defaulted))[i] == defaulted[|defaulted| - 1 - i].0
  {
    var args := required + Keys(defaulted);
    assert Reverse(args)[i] == args[|args| - 1 - i];
    assert args[|args| - 1 - i] == Keys(defaulted)[|defaulted| - 1 - i];
  }

  /** Reading the default values backwards starts with the last one. */
  lemma ReverseValuesAt(defaulted: Dict<Value>, i: nat)
    requires i < |defaulted|
    ensures Reverse(ValuesOf(defaulted))[i] == defaulted[|defaulted| - 1 - i].1
  {
    var values := ValuesOf(defaulted);
    assert Reverse(values)[i] == values[|values| - 1 - i];
  }

  /** Zipping `required + names` and the default values backwards visits the defaulted
      parameters last to first. */
  lemma ZipBackwards(required: seq<string>, defaulted: Dict<Value>)
    ensures Zip(Reverse(required + Keys(defaulted)), Reverse(ValuesOf(defaulted))) == Reverse(defaulted)
  {
    var names := Reverse(required + Keys(defaulted));
    var values := Reverse(ValuesOf(defaulted));
    var zipped := Zip(names, values);
    var n := |defaulted|;
    assert |zipped| == n;
    forall i | 0 <= i < n ensures zipped[i] == Reverse(defaulted)[i] {
      ReverseArgsAt(required, defaulted, i);
      ReverseValuesAt(defaulted, i);
    }
  }

  /** Slicing off the defaulted tail of `args` leaves the required parameters, and zipping
      `args` and `defaults` backwards visits the defaulted parameters last to first. */
  lemma ArgSpecSplit(sig: Signature)
    ensures var spec := FullArgSpec(sig);
      var defaults := if spec.defaults.Some? then spec.defaults.value else [];
      && |defaults| <= |spec.args|
      && spec.args[..|spec.args| - |defaults|] == sig.required
      && Zip(Reverse(spec.args), Reverse(defaults)) == Reverse(sig.defaulted)
  {
    var spec := FullArgSpec(sig);
    var defaults := if spec.defaults.Some? then spec.defaults.value else [];
    assert |defaults| == |sig.defaulted|;
    assert spec.args[..|spec.args| - |defaults|] == sig.required;
    ZipBackwards(sig.required, sig.defaulted);
  }

  /** The code as written fails exactly for the callables without keyword-only defaults, and
      otherwise computes what `Inspect` computes. */
  lemma InspectAsWrittenAgrees(never: set<string>, c: Callable)
    ensures InspectAsWritten(never, c) ==
      if SignatureOf(Unwrap(c)).kwonlyDefaults == [] then Failure(NoKeywordOnlyDefaults)
      else Success(Inspect(never, c))
  {
    ArgSpecSplit(SignatureOf(Unwrap(c)));
  }
}

=== FILE: properties.dfy ===
/** Properties of resolution and call-time injection that relate several engine steps. */
module Properties {
  import opened Wrappers
  import opened Dict
  import opened Values
  import opened Inspection
  import opened Registry
  import opened Engine

  /** User code: a function or a class. */
  predicate UserCode(c: Callable) {
    c.Function? || c.Class?
  }

  /** The null resolver and the value provider take no injectable parameters. */
  lemma BuiltinsHaveNoPoints(never: set<string>, name: string, provider: Callable, value: Value)
    ensures Inspect(never, NullResolver(name, provider)) == []
    ensures Inspect(never, Constant(value)) == []
  {
    assert Unwrap(NullResolver(name, provider)) == NullResolver(name, provider);
    assert Unwrap(Constant(value)) == Constant(value);
  }

  /** With a sound cache, a callable without injection points resolves to no producers,
      whether or not it is cached. */
  lemma LookupWithoutPoints(fuel: nat, st: State, func: Callable, oracle: Oracle)
    requires CacheSound(st.injector)
    requires Inspect(st.injector.neverInject, func) == []
    ensures Lookup(fuel, st, func, oracle).result == Success([])
    ensures Lookup(fuel, st, func, oracle).st.calls == st.calls
    ensures CacheSound(Lookup(fuel, st, func, oracle).st.injector)
  {
    if func in st.injector.cache {
      var entries := st.injector.cache[func];
      assert |Keys(entries)| == |entries| == 0;
    } else {
      assert Resolve(fuel, st, func, oracle) == PrimeAll(fuel, st, [], oracle) == Step(Success([]), st);
    }
  }

  /** `call_inject` on a directly called callable without injection points is just the call. */
  lemma CallInjectWithoutPoints(fuel: nat, st: State, func: Callable, args: seq<Value>, kwargs: map<string, Value>, oracle: Oracle)
    requires CacheSound(st.injector)
    requires Leaf(func) && Inspect(st.injector.neverInject, func) == []
    ensures CallInject(fuel, st, func, args, kwargs, oracle).result == Invoke(fuel, st, func, args, kwargs, oracle).result
    ensures CallInject(fuel, st, func, args, kwargs, oracle).st.calls == Invoke(fuel, st, func, args, kwargs, oracle).st.calls
  {
    LookupWithoutPoints(fuel, st, func, oracle);
  }

  /** Without a keyword `func` or `self`, the method `call_inject` is its body. */
  lemma CallInjectMethodRuns(fuel: nat, st: State, func: Callable, args: seq<Value>, kwargs: map<string, Value>, oracle: Oracle)
    requires !Reserved(kwargs)
    ensures CallInjectMethod(fuel, st, func, args, kwargs, oracle) == CallInject(fuel, st, func, args, kwargs, oracle)
  {
  }

  /** `_prime` on a bound name is the resolver call through `call_inject`, followed by `wrap`. */
  lemma PrimeOfBoundName(fuel: nat, st: State, point: InjectionPoint, oracle: Oracle)
    requires point.name in st.injector.resolvers && fuel > 0
    ensures var provided := CallInjectMethod(fuel - 1, st, st.injector.resolvers[point.name], point.parameters, point.config, oracle);
      Prime(fuel, st, point, oracle) ==
        if provided.result.Failure? then Step(Failure(provided.result.error), provided.st)
        else if provided.result.value.Fn? then Step(Success(Wrap(st.injector.neverInject, provided.result.value.callable)), provided.st)
        else Step(Failure(NotCallable), provided.st)
  {
  }

  /** `_make_null_resolver` through `_prime`: a configuration key `func` or `self` is rejected
      by the call of the method `call_inject`; any other point that carries parameters or
      configuration is rejected naming the registered dependency; a bare point yields the
      provider, wrapped. */
  lemma PrimeThroughNullResolver(fuel: nat, st: State, point: InjectionPoint, name: string, provider: Callable, oracle: Oracle)
    requires CacheSound(st.injector) && fuel > 0
    requires point.name in st.injector.resolvers
    requires st.injector.resolvers[point.name] == NullResolver(name, provider)
    ensures var r := Prime(fuel, st, point, oracle);
      if Reserved(point.config) then r.result == Failure(MultipleValues)
      else if point.parameters != [] || point.config != map[] then r.result == Failure(NotAResolver(name))
      else r.result == Success(Wrap(st.injector.neverInject, provider))
  {
    var resolver := NullResolver(name, provider);
    BuiltinsHaveNoPoints(st.injector.neverInject, name, provider, Object(0));
    CallInjectWithoutPoints(fuel - 1, st, resolver, point.parameters, point.config, oracle);
    PrimeOfBoundName(fuel, st, point, oracle);
  }

  // ---------------------------------------------------------------------------------------
  // What resolution stores.

  /** One iteration of the loop of `_resolve`. */
  lemma PrimeAllStep(fuel: nat, st: State, points: Dict<InjectionPoint>, oracle: Oracle)
    requires points != []
    ensures PrimeAll(fuel, st, points, oracle) ==
      var primed := Prime(fuel, st, points[0].1, oracle);
      if primed.result.Failure? then Step(Failure(primed.result.error), primed.st)
      else
        var rest := PrimeAll(fuel, primed.st, points[1..], oracle);
        if rest.result.Failure? then rest
        else Step(Success([(points[0].0, primed.result.value)] + rest.result.value), rest.st)
  {
  }

  /** A resolution that succeeded stores, under the key of each injection point, what `_prime`
      returned for that point, primed in the state the points before it left behind. */
  lemma {:induction false} PrimeAllEntries(fuel: nat, st: State, points: Dict<InjectionPoint>, oracle: Oracle, i: nat)
    requires PrimeAll(fuel, st, points, oracle).result.Success?
    requires i < |points|
    ensures var before := PrimeAll(fuel, st, points[..i], oracle);
      var primed := Prime(fuel, before.st, points[i].1, oracle);
      var r := PrimeAll(fuel, st, points, oracle);
      && before.result.Success?
      && primed.result.Success?
      && i < |r.result.value|
      && r.result.value[i] == (points[i].0, primed.result.value)
    decreases i
  {
    PrimeAllStep(fuel, st, points, oracle);
    var primed := Prime(fuel, st, points[0].1, oracle);
    var r := PrimeAll(fuel, st, points, oracle);
    assert |Keys(r.result.value)| == |points|;
    if i == 0 {
      assert points[..0] == [];
    } else {
      var rest := PrimeAll(fuel, primed.st, points[1..], oracle);
      PrimeAllEntries(fuel, primed.st, points[1..], oracle, i - 1);
      PrimeAllPrefix(fuel, st, points, oracle, i);
      assert points[1..][i - 1] == points[i];
      assert r.result.value[i] == rest.result.value[i - 1];
    }
  }

  /** Priming the first `i` points starts with the first point, then primes the next `i - 1`. */
  lemma PrimeAllPrefix(fuel: nat, st: State, points: Dict<InjectionPoint>, oracle: Oracle, i: nat)
    requires 0 < i <= |points|
    ensures var primed := Prime(fuel, st, points[0].1, oracle);
      primed.result.Success? && PrimeAll(fuel, primed.st, points[1..][..i - 1], oracle).result.Success? ==>
        PrimeAll(fuel, st, points[..i], oracle).result.Success? &&
        PrimeAll(fuel, st, points[..i], oracle).st == PrimeAll(fuel, primed.st, points[1..][..i - 1], oracle).st
  {
    var prefix := points[..i];
    assert prefix[0] == points[0] && prefix[1..] == points[1..][..i - 1];
    PrimeAllStep(fuel, st, prefix, oracle);
  }

  /** A bare injection point whose name is bound by `add_value` (or by `add_provider` with a
      value provider). */
  predicate ValueBound(resolvers: map<string, Callable>, point: InjectionPoint) {
    && point.parameters == [] && point.config == map[]
    && point.name in resolvers
    && resolvers[point.name].NullResolver?
    && resolvers[point.name].provider.Constant?
  }

  /** The value a value-bound point's name was registered with. */
  function BoundValue(resolvers: map<string, Callable>, point: InjectionPoint): Value
    requires ValueBound(resolvers, point)
  {
    resolvers[point.name].provider.value
  }

  /** `_prime` of a value-bound point yields the value provider itself: `lambda: value`
      declares no injection point, so `wrap` leaves it as it is. */
  lemma PrimeOfValue(fuel: nat, st: State, point: InjectionPoint, oracle: Oracle)
    requires CacheSound(st.injector) && fuel > 0
    requires ValueBound(st.injector.resolvers, point)
    ensures Prime(fuel, st, point, oracle).result == Success(Constant(BoundValue(st.injector.resolvers, point)))
  {
    var resolver := st.injector.resolvers[point.name];
    PrimeThroughNullResolver(fuel, st, point, resolver.name, resolver.provider, oracle);
    BuiltinsHaveNoPoints(st.injector.neverInject, resolver.name, resolver.provider, resolver.provider.value);
  }

  /** Resolving points that are all value-bound succeeds and stores, under each point's key,
      the provider of its bound value. */
  lemma {:induction false} PrimeAllValues(fuel: nat, st: State, points: Dict<InjectionPoint>, oracle: Oracle)
    requires CacheSound(st.injector) && (fuel > 0 || points == [])
    requires forall i :: 0 <= i < |points| ==> ValueBound(st.injector.resolvers, points[i].1)
    ensures var r := PrimeAll(fuel, st, points, oracle);
      && r.result.Success?
      && |r.result.value| == |points|
      && forall i :: 0 <= i < |points| ==>
           r.result.value[i] == (points[i].0, Constant(BoundValue(st.injector.resolvers, points[i].1)))
    decreases |points|
  {
    if points != [] {
      var resolvers := st.injector.resolvers;
      PrimeAllStep(fuel, st, points, oracle);
      PrimeOfValue(fuel, st, points[0].1, oracle);
      var primed := Prime(fuel, st, points[0].1, oracle);
      var tail := points[1..];
      forall i | 0 <= i < |tail| ensures ValueBound(primed.st.injector.resolvers, tail[i].1) {
        assert tail[i] == points[i + 1];
      }
      PrimeAllValues(fuel, primed.st, tail, oracle);
      var rest := PrimeAll(fuel, primed.st, tail, oracle);
      var r := PrimeAll(fuel, st, points, oracle);
      forall i | 0 <= i < |points|
        ensures r.result.value[i] == (points[i].0, Constant(BoundValue(resolvers, points[i].1)))
      {
        if i > 0 {
          assert tail[i - 1] == points[i];
          assert r.result.value[i] == rest.result.value[i - 1];
        }
      }
    }
  }

  /** `filled` holds the caller's keywords and, under the key of every other injection point,
      the value that point's name is bound to. */
  ghost predicate InjectsValues(filled: map<string, Value>, points: Dict<InjectionPoint>, resolvers: map<string, Callable>, kwargs: map<string, Value>)
    requires forall i :: 0 <= i < |points| ==> ValueBound(resolvers, points[i].1)
  {
    && (forall k :: k in filled <==> k in kwargs || k in Keys(points))
    && (forall k :: k in kwargs ==> filled[k] == kwargs[k])
    && (forall i :: 0 <= i < |points| && points[i].0 !in kwargs ==>
          points[i].0 in filled && filled[points[i].0] == BoundValue(resolvers, points[i].1))
  }

  /** Looking up a callable that is not cached and every injection point of which is
      value-bound stores, under each point's key, the provider of its bound value. */
  lemma LookupOfValues(fuel: nat, st: State, func: Callable, oracle: Oracle)
    requires CacheSound(st.injector) && func !in st.injector.cache
    requires var points := Inspect(st.injector.neverInject, func);
      && (fuel > 0 || points == [])
      && forall i :: 0 <= i < |points| ==> ValueBound(st.injector.resolvers, points[i].1)
    ensures var points := Inspect(st.injector.neverInject, func);
      var r := Lookup(fuel, st, func, oracle);
      && r.result.Success?
      && r.st.injector.resolvers == st.injector.resolvers
      && func in r.st.injector.cache
      && DistinctKeys(r.result.value)
      && |r.result.value| == |points|
      && forall i :: 0 <= i < |points| ==>
           r.result.value[i] == (points[i].0, Constant(BoundValue(st.injector.resolvers, points[i].1)))
  {
    var points := Inspect(st.injector.neverInject, func);
    PrimeAllValues(fuel, st, points, oracle);
    assert Keys(PrimeAll(fuel, st, points, oracle).result.value) == Keys(points);
  }

  /** Filling from value providers succeeds, changes nothing but the call log, and completes
      the caller's keywords with the bound values. */
  lemma FillWithValues(fuel: nat, st: State, entries: Entries, points: Dict<InjectionPoint>, resolvers: map<string, Callable>, kwargs: map<string, Value>, oracle: Oracle)
    requires forall i :: 0 <= i < |points| ==> ValueBound(resolvers, points[i].1)
    requires DistinctKeys(entries) && |entries| == |points|
    requires forall i :: 0 <= i < |points| ==> entries[i] == (points[i].0, Constant(BoundValue(resolvers, points[i].1)))
    ensures var r := Fill(fuel, st, entries, kwargs, oracle);
      && r.result.Success?
      && r.st.injector == st.injector
      && InjectsValues(r.result.value, points, resolvers, kwargs)
  {
    assert Keys(entries) == Keys(points);
    FillWithLeafProducers(fuel, st, entries, kwargs, oracle);
    assert ProducersSucceed(entries, kwargs, oracle);
    var m := Fill(fuel, st, entries, kwargs, oracle).result.value;
    forall i | 0 <= i < |points| && points[i].0 !in kwargs
      ensures points[i].0 in m && m[points[i].0] == BoundValue(resolvers, points[i].1)
    {
      assert Keys(entries)[i] == entries[i].0;
      GetAt(entries, i);
    }
  }

  /** The promise of `add_value`: calling a callable every injection point of which is bound
      to a value calls it with the caller's positional arguments and keywords, every other
      injectable parameter receiving exactly the value registered for its point; the call is
      the last one made, and the callable's producers are now cached. */
  lemma CallInjectInjectsValues(fuel: nat, st: State, func: Callable, args: seq<Value>, kwargs: map<string, Value>, oracle: Oracle)
    requires CacheSound(st.injector) && Leaf(func) && func !in st.injector.cache
    requires var points := Inspect(st.injector.neverInject, func);
      && (fuel > 0 || points == [])
      && forall i :: 0 <= i < |points| ==> ValueBound(st.injector.resolvers, points[i].1)
    ensures var points := Inspect(st.injector.neverInject, func);
      var r := CallInject(fuel, st, func, args, kwargs, oracle);
      && func in r.st.injector.cache
      && exists filled :: InjectsValues(filled, points, st.injector.resolvers, kwargs)
           && r.result == CallLeaf(func, args, filled, oracle)
           && |r.st.calls| > 0 && r.st.calls[|r.st.calls| - 1] == Invocation(func, args, filled)
  {
    var points := Inspect(st.injector.neverInject, func);
    CallInjectStep(fuel, st, func, args, kwargs, oracle);
    LookupOfValues(fuel, st, func, oracle);
    var looked := Lookup(fuel, st, func, oracle);
    FillWithValues(fuel, looked.st, looked.result.value, points, st.injector.resolvers, kwargs, oracle);
    var filled := Fill(fuel, looked.st, looked.result.value, kwargs, oracle);
    InvokeLeaf(fuel, filled.st, func, args, filled.result.value, oracle);
  }

  // ---------------------------------------------------------------------------------------
  // Filling keyword arguments from cached producers.

  /** The calls `call_inject` makes to the producers of `entries` when the caller passed
      `explicit` by keyword: one call without arguments per key the caller did not pass. */
  function ProducerCalls(entries: Entries, explicit: map<string, Value>): seq<Invocation>
    decreases |entries|
  {
    if entries == [] then []
    else
      var first := if entries[0].0 in explicit then [] else [Invocation(entries[0].1, [], map[])];
      first + ProducerCalls(entries[1..], explicit)
  }

  /** Every producer of a key the caller did not pass succeeds. */
  predicate ProducersSucceed(entries: Entries, explicit: map<string, Value>, oracle: Oracle)
    requires forall i :: 0 <= i < |entries| ==> Leaf(entries[i].1)
  {
    forall i :: 0 <= i < |entries| && entries[i].0 !in explicit ==> CallLeaf(entries[i].1, [], map[], oracle).Success?
  }

  /** `calls` is `before` followed by the first calls of `planned`, in order, and nothing else. */
  predicate LogsPrefixOf(calls: seq<Invocation>, before: seq<Invocation>, planned: seq<Invocation>)
  {
    |before| <= |calls| <= |before| + |planned| && calls == before + planned[..|calls| - |before|]
  }

  /** `filled` is `explicit` completed, for every other cached key, with the value its
      producer returns. */
  ghost predicate IsFilled(filled: map<string, Value>, entries: Entries, explicit: map<string, Value>, oracle: Oracle)
    requires forall i :: 0 <= i < |entries| ==> Leaf(entries[i].1)
  {
    && (forall k :: k in filled <==> k in explicit || k in Keys(entries))
    && (forall k :: k in explicit ==> filled[k] == explicit[k])
    && (forall k :: k !in explicit && k in Keys(entries) ==>
          Get(entries, k).Some? && CallLeaf(Get(entries, k).value, [], map[], oracle) == Success(filled[k]))
  }

  lemma InvokeLeaf(fuel: nat, st: State, c: Callable, args: seq<Value>, kwargs: map<string, Value>, oracle: Oracle)
    requires Leaf(c)
    ensures Invoke(fuel, st, c, args, kwargs, oracle) == Step(CallLeaf(c, args, kwargs, oracle), Log(st, c, args, kwargs))
  {
  }

  /** One iteration of the loop of `call_inject`. */
  lemma FillStep(fuel: nat, st: State, entries: Entries, explicit: map<string, Value>, oracle: Oracle)
    requires entries != []
    ensures entries[0].0 in explicit ==> Fill(fuel, st, entries, explicit, oracle) == Fill(fuel, st, entries[1..], explicit, oracle)
    ensures entries[0].0 !in explicit ==>
      var produced := Invoke(fuel, st, entries[0].1, [], map[], oracle);
      Fill(fuel, st, entries, explicit, oracle) ==
        if produced.result.Failure? then Step(Failure(produced.result.error), produced.st)
        else Fill(fuel, produced.st, entries[1..], explicit[entries[0].0 := produced.result.value], oracle)
  {
  }

  lemma AppendAssociates<T>(a: seq<T>, b: seq<T>, c: seq<T>)
    ensures (a + b) + c == a + (b + c)
  {
  }

  lemma DistinctTail(entries: Entries)
    requires entries != [] && DistinctKeys(entries)
    ensures DistinctKeys(entries[1..]) && entries[0].0 !in Keys(entries[1..])
  {
    assert Keys(entries[1..]) == Keys(entries)[1..];
  }

  lemma {:induction false} ProducerCallsIgnore(entries: Entries, explicit: map<string, Value>, key: string, v: Value)
    requires key !in Keys(entries)
    ensures ProducerCalls(entries, explicit[key := v]) == ProducerCalls(entries, explicit)
    decreases |entries|
  {
    if entries != [] {
      assert Keys(entries[1..]) == Keys(entries)[1..];
      ProducerCallsIgnore(entries[1..], explicit, key, v);
    }
  }

  /** The loop of `call_inject` over producers the engine calls directly: it changes nothing
      but the call log, calls the producer of each key the caller did not pass exactly once,
      never calls the producer of a key the caller passed, keeps every explicit argument, and
      succeeds exactly when all those producers do. */
  lemma {:induction false} FillWithLeafProducers(fuel: nat, st: State, entries: Entries, explicit: map<string, Value>, oracle: Oracle)
    requires DistinctKeys(entries)
    requires forall i :: 0 <= i < |entries| ==> Leaf(entries[i].1)
    ensures var r := Fill(fuel, st, entries, explicit, oracle);
      && r.st.injector == st.injector
      && (r.result.Success? <==> ProducersSucceed(entries, explicit, oracle))
      && (r.result.Success? ==> r.st.calls == st.calls + ProducerCalls(entries, explicit))
      && (r.result.Success? ==> IsFilled(r.result.value, entries, explicit, oracle))
      && (r.result.Failure? ==> LogsPrefixOf(r.st.calls, st.calls, ProducerCalls(entries, explicit)))
    decreases |entries|
  {
    FillCallsProducers(fuel, st, entries, explicit, oracle);
    if entries != [] {
      var key := entries[0].0;
      var rest := entries[1..];
      DistinctTail(entries);
      assert forall i :: 0 <= i < |rest| ==> Leaf(rest[i].1) by {
        forall i | 0 <= i < |rest| ensures Leaf(rest[i].1) { assert rest[i] == entries[i + 1]; }
      }
      FillStep(fuel, st, entries, explicit, oracle);
      if key in explicit {
        FillWithLeafProducers(fuel, st, rest, explicit, oracle);
        FillStepExplicit(entries, explicit, oracle);
      } else {
        var produced := Invoke(fuel, st, entries[0].1, [], map[], oracle);
        InvokeLeaf(fuel, st, entries[0].1, [], map[], oracle);
        if produced.result.Success? {
          var v := produced.result.value;
          FillWithLeafProducers(fuel, produced.st, rest, explicit[key := v], oracle);
          ProducerCallsIgnore(rest, explicit, key, v);
          FillStepInjected(entries, explicit, v, oracle);
          var r := Fill(fuel, produced.st, rest, explicit[key := v], oracle);
          if r.result.Success? {
            FillStepFilled(r.result.value, entries, explicit, v, oracle);
            var call := Invocation(entries[0].1, [], map[]);
            var later := ProducerCalls(rest, explicit);
            assert produced.st.calls == st.calls + [call];
            assert r.st.calls == (st.calls + [call]) + later;
            assert ProducerCalls(entries, explicit) == [call] + later;
            AppendAssociates(st.calls, [call], later);
          }
        } else {
          assert !ProducersSucceed(entries, explicit, oracle) by {
            assert entries[0].0 !in explicit && !CallLeaf(entries[0].1, [], map[], oracle).Success?;
          }
        }
      }
    }
  }

  /** Whatever its outcome, the loop of `call_inject` over producers the engine calls directly
      makes, in order, the first of the calls it would make if every producer succeeded, and
      no other call. */
  lemma {:induction false} FillCallsProducers(fuel: nat, st: State, entries: Entries, explicit: map<string, Value>, oracle: Oracle)
    requires DistinctKeys(entries)
    requires forall i :: 0 <= i < |entries| ==> Leaf(entries[i].1)
    ensures LogsPrefixOf(Fill(fuel, st, entries, explicit, oracle).st.calls, st.calls, ProducerCalls(entries, explicit))
    decreases |entries|
  {
    if entries == [] {
      assert Fill(fuel, st, entries, explicit, oracle).st == st;
    } else {
      var key := entries[0].0;
      var rest := entries[1..];
      DistinctTail(entries);
      LeavesTail(entries);
      ProducerCallsStep(entries, explicit);
      if key in explicit {
        FillStep(fuel, st, entries, explicit, oracle);
        FillCallsProducers(fuel, st, rest, explicit, oracle);
      } else {
        var call := Invocation(entries[0].1, [], map[]);
        var produced := CallLeaf(entries[0].1, [], map[], oracle);
        FillLeafStep(fuel, st, entries, explicit, oracle);
        if produced.Success? {
          var next := Log(st, entries[0].1, [], map[]);
          FillCallsProducers(fuel, next, rest, explicit[key := produced.value], oracle);
          ProducerCallsIgnore(rest, explicit, key, produced.value);
          LogsPrefixCons(Fill(fuel, next, rest, explicit[key := produced.value], oracle).st.calls, st.calls, call, ProducerCalls(rest, explicit));
        } else {
          LogsPrefixFirst(st.calls, call, ProducerCalls(rest, explicit));
        }
      }
    }
  }

  lemma LeavesTail(entries: Entries)
    requires entries != [] && forall i :: 0 <= i < |entries| ==> Leaf(entries[i].1)
    ensures forall i :: 0 <= i < |entries[1..]| ==> Leaf(entries[1..][i].1)
  {
    forall i | 0 <= i < |entries[1..]| ensures Leaf(entries[1..][i].1) { assert entries[1..][i] == entries[i + 1]; }
  }

  lemma ProducerCallsStep(entries: Entries, explicit: map<string, Value>)
    requires entries != []
    ensures entries[0].0 in explicit ==> ProducerCalls(entries, explicit) == ProducerCalls(entries[1..], explicit)
    ensures entries[0].0 !in explicit ==>
      ProducerCalls(entries, explicit) == [Invocation(entries[0].1, [], map[])] + ProducerCalls(entries[1..], explicit)
  {
    assert [] + ProducerCalls(entries[1..], explicit) == ProducerCalls(entries[1..], explicit);
  }

  /** One iteration of the loop of `call_inject` on a producer the engine calls directly. */
  lemma FillLeafStep(fuel: nat, st: State, entries: Entries, explicit: map<string, Value>, oracle: Oracle)
    requires entries != [] && entries[0].0 !in explicit && Leaf(entries[0].1)
    ensures var produced := CallLeaf(entries[0].1, [], map[], oracle);
      var next := Log(st, entries[0].1, [], map[]);
      Fill(fuel, st, entries, explicit, oracle) ==
        if produced.Failure? then Step(Failure(produced.error), next)
        else Fill(fuel, next, entries[1..], explicit[entries[0].0 := produced.value], oracle)
  {
    FillStep(fuel, st, entries, explicit, oracle);
    InvokeLeaf(fuel, st, entries[0].1, [], map[], oracle);
  }

  /** The first call of `[call] + planned`, made after `before`. */
  lemma LogsPrefixFirst(before: seq<Invocation>, call: Invocation, planned: seq<Invocation>)
    ensures LogsPrefixOf(before + [call], before, [call] + planned)
  {
    assert ([call] + planned)[..1] == [call];
  }

  /** A prefix of `planned` made after `call` is a prefix of `[call] + planned`. */
  lemma LogsPrefixCons(calls: seq<Invocation>, before: seq<Invocation>, call: Invocation, planned: seq<Invocation>)
    requires LogsPrefixOf(calls, before + [call], planned)
    ensures LogsPrefixOf(calls, before, [call] + planned)
  {
    var n := |calls| - |before + [call]|;
    assert ([call] + planned)[..n + 1] == [call] + planned[..n];
  }

  lemma FillStepExplicit(entries: Entries, explicit: map<string, Value>, oracle: Oracle)
    requires entries != [] && entries[0].0 in explicit
    requires forall i :: 0 <= i < |entries| ==> Leaf(entries[i].1)
    ensures ProducersSucceed(entries, explicit, oracle) <==> ProducersSucceed(entries[1..], explicit, oracle)
    ensures ProducerCalls(entries, explicit) == ProducerCalls(entries[1..], explicit)
    ensures forall filled :: IsFilled(filled, entries[1..], explicit, oracle) ==> IsFilled(filled, entries, explicit, oracle)
  {
    forall filled | IsFilled(filled, entries[1..], explicit, oracle)
      ensures IsFilled(filled, entries, explicit, oracle)
    {
      forall k | k !in explicit && k in Keys(entries)
        ensures Get(entries, k).Some? && CallLeaf(Get(entries, k).value, [], map[], oracle) == Success(filled[k])
      {
        assert k in Keys(entries[1..]);
      }
    }
    if ProducersSucceed(entries[1..], explicit, oracle) {
      forall i | 0 <= i < |entries| && entries[i].0 !in explicit
        ensures CallLeaf(entries[i].1, [], map[], oracle).Success?
      {
        assert entries[i] == entries[1..][i - 1];
      }
    }
  }

  lemma FillStepInjected(entries: Entries, explicit: map<string, Value>, v: Value, oracle: Oracle)
    requires entries != [] && entries[0].0 !in explicit && DistinctKeys(entries)
    requires forall i :: 0 <= i < |entries| ==> Leaf(entries[i].1)
    requires CallLeaf(entries[0].1, [], map[], oracle) == Success(v)
    ensures ProducersSucceed(entries, explicit, oracle) <==> ProducersSucceed(entries[1..], explicit[entries[0].0 := v], oracle)
    ensures ProducerCalls(entries, explicit) == [Invocation(entries[0].1, [], map[])] + ProducerCalls(entries[1..], explicit)
  {
    var key := entries[0].0;
    DistinctTail(entries);
    if ProducersSucceed(entries[1..], explicit[key := v], oracle) {
      forall i | 0 <= i < |entries| && entries[i].0 !in explicit
        ensures CallLeaf(entries[i].1, [], map[], oracle).Success?
      {
        if i > 0 {
          assert entries[i] == entries[1..][i - 1];
          assert entries[i].0 in Keys(entries[1..]);
        }
      }
    }
    if ProducersSucceed(entries, explicit, oracle) {
      forall i | 0 <= i < |entries[1..]| && entries[1..][i].0 !in explicit[key := v]
        ensures CallLeaf(entries[1..][i].1, [], map[], oracle).Success?
      {
        assert entries[1..][i] == entries[i + 1];
      }
    }
  }

  lemma FillStepFilled(filled: map<string, Value>, entries: Entries, explicit: map<string, Value>, v: Value, oracle: Oracle)
    requires entries != [] && entries[0].0 !in explicit && DistinctKeys(entries)
    requires forall i :: 0 <= i < |entries| ==> Leaf(entries[i].1)
    requires CallLeaf(entries[0].1, [], map[], oracle) == Success(v)
    requires IsFilled(filled, entries[1..], explicit[entries[0].0 := v], oracle)
    ensures IsFilled(filled, entries, explicit, oracle)
  {
    var key := entries[0].0;
    var rest := entries[1..];
    DistinctTail(entries);
    KeysSplit(entries);
    FilledKeys(filled, entries, explicit, v);
    FilledProduced(filled, entries, explicit, v, oracle);
  }

  lemma FilledKeys(filled: map<string, Value>, entries: Entries, explicit: map<string, Value>, v: Value)
    requires entries != [] && entries[0].0 !in explicit
    requires forall k :: k in filled <==> k in explicit[entries[0].0 := v] || k in Keys(entries[1..])
    ensures forall k :: k in filled <==> k in explicit || k in Keys(entries)
  {
    KeysSplit(entries);
    forall k ensures k in filled <==> k in explicit || k in Keys(entries) {
      assert k in Keys(entries) <==> k == entries[0].0 || k in Keys(entries[1..]);
    }
  }

  lemma FilledProduced(filled: map<string, Value>, entries: Entries, explicit: map<string, Value>, v: Value, oracle: Oracle)
    requires entries != [] && entries[0].0 !in explicit && entries[0].0 !in Keys(entries[1..])
    requires forall i :: 0 <= i < |entries| ==> Leaf(entries[i].1)
    requires CallLeaf(entries[0].1, [], map[], oracle) == Success(v)
    requires IsFilled(filled, entries[1..], explicit[entries[0].0 := v], oracle)
    ensures forall k :: k !in explicit && k in Keys(entries) ==>
      Get(entries, k).Some? && CallLeaf(Get(entries, k).value, [], map[], oracle) == Success(filled[k])
  {
    var key := entries[0].0;
    var rest := entries[1..];
    KeysSplit(entries);
    forall k | k !in explicit && k in Keys(entries)
      ensures Get(entries, k).Some? && CallLeaf(Get(entries, k).value, [], map[], oracle) == Success(filled[k])
    {
      if k == key {
        assert Get(entries, k) == Some(entries[0].1);
        assert filled[k] == v;
      } else {
        assert Get(entries, k) == Get(rest, k);
        assert k in Keys(rest) && k !in explicit[key := v];
      }
    }
  }

  // ---------------------------------------------------------------------------------------
  // Calls, the cache, and the registry.

  /** One `call_inject`: look up, fill, call. */
  lemma CallInjectStep(fuel: nat, st: State, func: Callable, args: seq<Value>, kwargs: map<string, Value>, oracle: Oracle)
    ensures CallInject(fuel, st, func, args, kwargs, oracle) ==
      var entries := Lookup(fuel, st, func, oracle);
      if entries.result.Failure? then Step(Failure(entries.result.error), entries.st)
      else
        var filled := Fill(fuel, entries.st, entries.result.value, kwargs, oracle);
        if filled.result.Failure? then Step(Failure(filled.result.error), filled.st)
        else Invoke(fuel, filled.st, func, args, filled.result.value, oracle)
  {
  }

  /** A sound cache entry has distinct keys, since `inspect` returns a dictionary. */
  lemma CachedKeysDistinct(inj: Injector, func: Callable)
    requires CacheSound(inj) && func in inj.cache
    ensures DistinctKeys(inj.cache[func])
  {
    assert Keys(inj.cache[func]) == Keys(Inspect(inj.neverInject, func));
  }

  /** A call whose callable is already cached resolves nothing: it changes nothing but the call
      log, which gains one call per producer of a key the caller did not pass, then the call
      of `func` itself with the caller's keywords completed by the producers' values. It
      succeeds as far as the producers do and returns what `func` returns; when a producer
      raises, the log has gained only the first of those producer calls, in order. */
  lemma CallInjectOnCacheHit(fuel: nat, st: State, func: Callable, args: seq<Value>, explicit: map<string, Value>, oracle: Oracle)
    requires CacheSound(st.injector)
    requires func in st.injector.cache && Leaf(func)
    requires forall i :: 0 <= i < |st.injector.cache[func]| ==> Leaf(st.injector.cache[func][i].1)
    ensures var entries := st.injector.cache[func];
      var r := CallInject(fuel, st, func, args, explicit, oracle);
      && r.st.injector == st.injector
      && (!ProducersSucceed(entries, explicit, oracle) ==>
            r.result.Failure? && LogsPrefixOf(r.st.calls, st.calls, ProducerCalls(entries, explicit)))
      && (ProducersSucceed(entries, explicit, oracle) ==>
            exists filled :: IsFilled(filled, entries, explicit, oracle)
              && r.st.calls == st.calls + ProducerCalls(entries, explicit) + [Invocation(func, args, filled)]
              && r.result == CallLeaf(func, args, filled, oracle))
  {
    var entries := st.injector.cache[func];
    CachedKeysDistinct(st.injector, func);
    CallInjectStep(fuel, st, func, args, explicit, oracle);
    FillWithLeafProducers(fuel, st, entries, explicit, oracle);
    var filled := Fill(fuel, st, entries, explicit, oracle);
    if filled.result.Success? {
      InvokeLeaf(fuel, filled.st, func, args, filled.result.value, oracle);
      var r := CallInject(fuel, st, func, args, explicit, oracle);
      assert r == Step(CallLeaf(func, args, filled.result.value, oracle), Log(filled.st, func, args, filled.result.value));
      assert IsFilled(filled.result.value, entries, explicit, oracle);
    } else {
      assert CallInject(fuel, st, func, args, explicit, oracle).st == filled.st;
    }
  }

  /** After a call whose resolution succeeded, the callable's entry is in the cache, complete;
      calls made from any later state that evolved from this one find the same entry. */
  lemma CallInjectStoresEntry(fuel: nat, st: State, func: Callable, args: seq<Value>, kwargs: map<string, Value>, oracle: Oracle)
    requires CacheSound(st.injector)
    ensures var r := CallInject(fuel, st, func, args, kwargs, oracle);
      r.result.Success? ==>
        && func in r.st.injector.cache
        && Keys(r.st.injector.cache[func]) == Keys(Inspect(st.injector.neverInject, func))
  {
    CallInjectStep(fuel, st, func, args, kwargs, oracle);
  }

  /** A stored entry is what every later lookup returns, so the resolvers behind it do not run
      again until the registry changes. */
  lemma LookupReusesEntry(fuel: nat, st: State, func: Callable, later: State, fuel': nat, oracle: Oracle, oracle': Oracle)
    requires Lookup(fuel, st, func, oracle).result.Success?
    requires Evolves(Lookup(fuel, st, func, oracle).st, later)
    ensures Lookup(fuel', later, func, oracle') == Step(Lookup(fuel, st, func, oracle).result, later)
  {
  }

  /** Resolution stops at the first injection point whose name has no resolver. */
  lemma {:induction false} PrimeAllFailsOnUnbound(fuel: nat, st: State, points: Dict<InjectionPoint>, oracle: Oracle)
    requires exists i :: 0 <= i < |points| && points[i].1.name !in st.injector.resolvers
    ensures PrimeAll(fuel, st, points, oracle).result.Failure?
    decreases |points|
  {
    if points[0].1.name in st.injector.resolvers {
      var primed := Prime(fuel, st, points[0].1, oracle);
      if primed.result.Success? {
        var i :| 0 <= i < |points| && points[i].1.name !in st.injector.resolvers;
        assert points[1..][i - 1] == points[i];
        PrimeAllFailsOnUnbound(fuel, primed.st, points[1..], oracle);
      }
    }
  }

  /** After `remove(name)`, a point named `name` is unresolved, and calling any callable that
      declares such a point fails. */
  lemma RemovedNameIsUnresolved(inj: Injector, name: string, calls: seq<Invocation>, fuel: nat, func: Callable, args: seq<Value>, kwargs: map<string, Value>, oracle: Oracle)
    requires Remove(inj, name).Success?
    requires exists i :: 0 <= i < |Inspect(inj.neverInject, func)| && Inspect(inj.neverInject, func)[i].1.name == name
    ensures var st := State(Remove(inj, name).value, calls);
      CallInject(fuel, st, func, args, kwargs, oracle).result.Failure?
  {
    var st := State(Remove(inj, name).value, calls);
    var points := Inspect(inj.neverInject, func);
    var i :| 0 <= i < |points| && points[i].1.name == name;
    PrimeAllFailsOnUnbound(fuel, st, points, oracle);
    CallInjectStep(fuel, st, func, args, kwargs, oracle);
  }

  /** Every alias resolves exactly as the name it was registered with. */
  lemma AliasesResolveAlike(inj: Injector, name: string, func: Callable, alias: seq<string>, a: string, calls: seq<Invocation>, fuel: nat, parameters: seq<Value>, config: map<string, Value>, oracle: Oracle)
    requires a in alias
    ensures var st := State(AddResolver(inj, name, func, alias), calls);
      Prime(fuel, st, InjectionPoint(a, parameters, config), oracle) == Prime(fuel, st, InjectionPoint(name, parameters, config), oracle)
  {
    var st := State(AddResolver(inj, name, func, alias), calls);
    if fuel > 0 {
      PrimeOfBoundName(fuel, st, InjectionPoint(a, parameters, config), oracle);
      PrimeOfBoundName(fuel, st, InjectionPoint(name, parameters, config), oracle);
    }
  }

  /** `_prime` with a resolver written by the user: on success the last call made is the
      resolver itself, with the point's parameters as positional arguments and the point's
      configuration among its keywords, and what `_prime` returns is the callable the
      resolver returned, wrapped. */
  lemma PrimeCallsResolver(fuel: nat, st: State, point: InjectionPoint, oracle: Oracle)
    requires point.name in st.injector.resolvers && fuel > 0
    requires UserCode(st.injector.resolvers[point.name])
    ensures var r := Prime(fuel, st, point, oracle);
      var resolver := st.injector.resolvers[point.name];
      r.result.Success? ==>
        && !Reserved(point.config)
        && |r.st.calls| > |st.calls|
        && var last := r.st.calls[|r.st.calls| - 1];
        && last.callee == resolver
        && last.args == point.parameters
        && (forall k :: k in point.config ==> k in last.kwargs && last.kwargs[k] == point.config[k])
        && oracle(resolver, point.parameters, last.kwargs).Success?
        && oracle(resolver, point.parameters, last.kwargs).value.Fn?
        && r.result.value == Wrap(st.injector.neverInject, oracle(resolver, point.parameters, last.kwargs).value.callable)
  {
    if !Reserved(point.config) {
      var resolver := st.injector.resolvers[point.name];
      PrimeOfUnreserved(fuel, st, point, oracle);
      UserCallIsLast(fuel - 1, st, resolver, point.parameters, point.config, oracle);
      ProviderWrapped(Prime(fuel, st, point, oracle), CallInject(fuel - 1, st, resolver, point.parameters, point.config, oracle),
        st, resolver, point.parameters, point.config, oracle);
    } else {
      assert Prime(fuel, st, point, oracle).result.Failure?;
    }
  }

  /** `_prime` on a bound name whose configuration has no key `func` or `self`: the body of
      `call_inject` on the resolver, followed by `wrap`. */
  lemma PrimeOfUnreserved(fuel: nat, st: State, point: InjectionPoint, oracle: Oracle)
    requires point.name in st.injector.resolvers && fuel > 0 && !Reserved(point.config)
    ensures var provided := CallInject(fuel - 1, st, st.injector.resolvers[point.name], point.parameters, point.config, oracle);
      Prime(fuel, st, point, oracle) ==
        if provided.result.Failure? then Step(Failure(provided.result.error), provided.st)
        else if provided.result.value.Fn? then Step(Success(Wrap(st.injector.neverInject, provided.result.value.callable)), provided.st)
        else Step(Failure(NotCallable), provided.st)
  {
    PrimeOfBoundName(fuel, st, point, oracle);
    CallInjectMethodRuns(fuel - 1, st, st.injector.resolvers[point.name], point.parameters, point.config, oracle);
  }

  /** What `_prime` makes of a resolver call that ended with the call of the resolver itself. */
  lemma ProviderWrapped(r: Step<Callable>, provided: Step<Value>, st: State, resolver: Callable, args: seq<Value>, kwargs: map<string, Value>, oracle: Oracle)
    requires r ==
      if provided.result.Failure? then Step(Failure(provided.result.error), provided.st)
      else if provided.result.value.Fn? then Step(Success(Wrap(st.injector.neverInject, provided.result.value.callable)), provided.st)
      else Step(Failure(NotCallable), provided.st)
    requires provided.result.Success? ==>
      && |provided.st.calls| > |st.calls|
      && var last := provided.st.calls[|provided.st.calls| - 1];
      && last.callee == resolver
      && last.args == args
      && (forall k :: k in kwargs ==> k in last.kwargs && last.kwargs[k] == kwargs[k])
      && provided.result == oracle(resolver, args, last.kwargs)
    ensures r.result.Success? ==>
      && |r.st.calls| > |st.calls|
      && var last := r.st.calls[|r.st.calls| - 1];
      && last.callee == resolver
      && last.args == args
      && (forall k :: k in kwargs ==> k in last.kwargs && last.kwargs[k] == kwargs[k])
      && oracle(resolver, args, last.kwargs).Success?
      && oracle(resolver, args, last.kwargs).value.Fn?
      && r.result.value == Wrap(st.injector.neverInject, oracle(resolver, args, last.kwargs).value.callable)
  {
  }


  /** `call_inject`'s body on user code: on success the last call made is `func` itself, with
      the caller's positional arguments and keywords among its keywords, and the result is
      what that call returned. */
  lemma UserCallIsLast(fuel: nat, st: State, func: Callable, args: seq<Value>, kwargs: map<string, Value>, oracle: Oracle)
    requires UserCode(func)
    ensures var r := CallInject(fuel, st, func, args, kwargs, oracle);
      r.result.Success? ==>
        && |r.st.calls| > |st.calls|
        && var last := r.st.calls[|r.st.calls| - 1];
        && last.callee == func
        && last.args == args
        && (forall k :: k in kwargs ==> k in last.kwargs && last.kwargs[k] == kwargs[k])
        && r.result == oracle(func, args, last.kwargs)
  {
    CallInjectStep(fuel, st, func, args, kwargs, oracle);
    var entries := Lookup(fuel, st, func, oracle);
    if entries.result.Success? {
      var filled := Fill(fuel, entries.st, entries.result.value, kwargs, oracle);
      if filled.result.Success? {
        InvokeLeaf(fuel, filled.st, func, args, filled.result.value, oracle);
      }
    }
  }


  /** `wrap(func)` runs the body of `call_inject(func, ...)`: the same result and the same
      calls. When `func` declares no injection point the wrapper is `func` itself. The method
      `call_inject` agrees with the wrapper whenever no keyword is `func` or `self`; with such a
      keyword the method raises, while the wrapper passes it on to `func` if resolution
      succeeds. */
  lemma WrapAgreesWithCallInject(fuel: nat, st: State, func: Callable, args: seq<Value>, kwargs: map<string, Value>, oracle: Oracle)
    requires CacheSound(st.injector) && Leaf(func)
    ensures var w := Invoke(fuel + 1, st, Wrap(st.injector.neverInject, func), args, kwargs, oracle);
      var c := CallInject(fuel, st, func, args, kwargs, oracle);
      w.result == c.result && w.st.calls == c.st.calls
    ensures var w := Invoke(fuel + 1, st, Wrap(st.injector.neverInject, func), args, kwargs, oracle);
      var m := CallInjectMethod(fuel, st, func, args, kwargs, oracle);
      !Reserved(kwargs) ==> w.result == m.result && w.st.calls == m.st.calls
    ensures Reserved(kwargs) ==> CallInjectMethod(fuel, st, func, args, kwargs, oracle).result == Failure(MultipleValues)
  {
    if Inspect(st.injector.neverInject, func) == [] {
      CallInjectWithoutPoints(fuel, st, func, args, kwargs, oracle);
      InvokeLeaf(fuel + 1, st, func, args, kwargs, oracle);
      InvokeLeaf(fuel, st, func, args, kwargs, oracle);
    }
  }


  /** A second `call_inject` of a callable whose first call succeeded resolves nothing: the
      registry and the cache stay as the first call left them; the only calls made are those of
      the producers of the keys not passed, in order, up to the first that raises, and when
      none raises, then the callable's own. */
  lemma SecondCallResolvesNothing(fuel: nat, st: State, func: Callable, args: seq<Value>, kwargs: map<string, Value>, fuel': nat, args': seq<Value>, kwargs': map<string, Value>, oracle: Oracle)
    requires CacheSound(st.injector) && Leaf(func)
    requires CallInject(fuel, st, func, args, kwargs, oracle).result.Success?
    requires var cache := CallInject(fuel, st, func, args, kwargs, oracle).st.injector.cache;
      func in cache && forall i :: 0 <= i < |cache[func]| ==> Leaf(cache[func][i].1)
    ensures var after := CallInject(fuel, st, func, args, kwargs, oracle).st;
      var entries := after.injector.cache[func];
      var again := CallInject(fuel', after, func, args', kwargs', oracle);
      && again.st.injector == after.injector
      && (!ProducersSucceed(entries, kwargs', oracle) ==>
            again.result.Failure? && LogsPrefixOf(again.st.calls, after.calls, ProducerCalls(entries, kwargs')))
      && (ProducersSucceed(entries, kwargs', oracle) ==>
            exists filled :: IsFilled(filled, entries, kwargs', oracle)
              && again.st.calls == after.calls + ProducerCalls(entries, kwargs') + [Invocation(func, args', filled)])
  {
    var after := CallInject(fuel, st, func, args, kwargs, oracle).st;
    assert CacheSound(after.injector);
    CallInjectOnCacheHit(fuel', after, func, args', kwargs', oracle);
  }
}

=== FILE: registry.dfy ===
/** The injector's state and its registration operations: `add_resolver`, `add_provider`,
    `add_value` and `remove`. Every successful mutation empties the provider cache. */
module Registry {
  import opened Wrappers
  import opened Dict
  import opened Values

  /** The cached resolution of one callable: `(parameter, producer)` pairs in the order
      `inspect` lists the parameters. */
  type Entries = Dict<Callable>

  /** An `Injector`: the resolver registry, the provider cache keyed by callable, and the
      parameter names that are never injected. */
  datatype Injector = Injector(
    resolvers: map<string, Callable>,
    cache: map<Callable, Entries>,
    neverInject: set<string>)

  /** `set('self')`: the set of the characters of the word, not the word. */
  const NeverInjectAsWritten: set<string> := {"s", "e", "l", "f"}

  /** `Injector()` as written. */
  function NewInjector(): (inj: Injector)
    ensures inj.resolvers == map[] && inj.cache == map[]
    ensures "self" !in inj.neverInject
    ensures forall n :: n in inj.neverInject <==> |n| == 1 && n[0] in "self"
  {
    forall n ensures n in NeverInjectAsWritten <==> |n| == 1 && n[0] in "self" {
      if |n| == 1 {
        assert n == [n[0]];
      }
    }
    Injector(map[], map[], NeverInjectAsWritten)
  }

  /** `Injector()` with the exclusion list evidently intended, `{'self'}`. */
  function NewInjectorIntended(): (inj: Injector)
    ensures inj.resolvers == map[] && inj.cache == map[]
    ensures forall name :: name in inj.neverInject <==> name == "self"
  {
    Injector(map[], map[], {"self"})
  }

  /** Binds every name of `names` to `func`, in order. */
  function BindAll(resolvers: map<string, Callable>, names: seq<string>, func: Callable): (r: map<string, Callable>)
    ensures forall n :: n in names ==> n in r && r[n] == func
    ensures forall n :: n !in names ==> (n in r <==> n in resolvers)
    ensures forall n :: n !in names && n in resolvers ==> r[n] == resolvers[n]
    decreases |names|
  {
    if names == [] then resolvers else BindAll(resolvers[names[0] := func], names[1..], func)
  }

  /** `add_resolver(name, func, alias)`: `name` and every alias are bound to `func`, earlier
      bindings of those names are overwritten, and the cache is emptied. */
  function AddResolver(inj: Injector, name: string, func: Callable, alias: seq<string>): (r: Injector)
    ensures forall n :: (n == name || n in alias) ==> n in r.resolvers && r.resolvers[n] == func
    ensures forall n :: n != name && n !in alias ==> (n in r.resolvers <==> n in inj.resolvers)
    ensures forall n :: n != name && n !in alias && n in inj.resolvers ==> r.resolvers[n] == inj.resolvers[n]
    ensures r.cache == map[]
    ensures r.neverInject == inj.neverInject
  {
    inj.(resolvers := BindAll(inj.resolvers, [name] + alias, func), cache := map[])
  }

  /** `add_provider(name, func, alias)`: binds a null resolver that hands out `func` itself. */
  function AddProvider(inj: Injector, name: string, func: Callable, alias: seq<string>): (r: Injector)
    ensures forall n :: (n == name || n in alias) ==> n in r.resolvers && r.resolvers[n] == NullResolver(name, func)
    ensures forall n :: n != name && n !in alias ==> (n in r.resolvers <==> n in inj.resolvers)
    ensures forall n :: n != name && n !in alias && n in inj.resolvers ==> r.resolvers[n] == inj.resolvers[n]
    ensures r.cache == map[]
    ensures r.neverInject == inj.neverInject
  {
    AddResolver(inj, name, NullResolver(name, func), alias)
  }

  /** `add_value(name, value, alias)`: registers the provider `lambda: value`. */
  function AddValue(inj: Injector, name: string, value: Value, alias: seq<string>): (r: Injector)
    ensures forall n :: (n == name || n in alias) ==> n in r.resolvers && r.resolvers[n] == NullResolver(name, Constant(value))
    ensures forall n :: n != name && n !in alias ==> (n in r.resolvers <==> n in inj.resolvers)
    ensures forall n :: n != name && n !in alias && n in inj.resolvers ==> r.resolvers[n] == inj.resolvers[n]
    ensures r.cache == map[]
    ensures r.neverInject == inj.neverInject
  {
    AddProvider(inj, name, Constant(value), alias)
  }

  /** `remove(name)`: `pop` without a default raises `KeyError` for an unbound name;
      otherwise only `name` is unbound and the cache is emptied (every callable is truthy). */
  function Remove(inj: Injector, name: string): (r: Result<Injector, Error>)
    ensures r.Failure? <==> name !in inj.resolvers
    ensures r.Failure? ==> r.error == UnknownRemoval(name)
    ensures r.Success? ==> name !in r.value.resolvers
    ensures r.Success? ==> forall n :: n != name ==> (n in r.value.resolvers <==> n in inj.resolvers)
    ensures r.Success? ==> forall n :: n != name && n in inj.resolvers ==> r.value.resolvers[n] == inj.resolvers[n]
    ensures r.Success? ==> r.value.cache == map[] && r.value.neverInject == inj.neverInject
  {
    if name !in inj.resolvers then Failure(UnknownRemoval(name))
    else Success(inj.(resolvers := inj.resolvers - {name}, cache := map[]))
  }
}

=== FILE: scenarios.dfy ===
/** Concrete injectors and callables: the test suite's inspection example and the callable
    that shows the exclusion list at work. */
module Scenarios {
  import opened Wrappers
  import opened Dict
  import opened Values
  import opened Inspection
  import opened Registry
  import opened Engine
  import opened Properties

  /** The function of the test suite's inspection test: required `a` and `_b`; `c` defaulting
      to a number; `d` and `e` defaulting to markers, the second with a parameter and a
      configuration entry; then `*f` and `**g`. */
  const InspectionExample: Callable := Function(1, Signature(
    ["a", "_b"],
    [("c", Num(5)), ("d", Inject("x", [], map[])), ("e", Inject("x2", [Text("foo")], map["bar" := Text("baz")]))],
    Some("f"), [], Some("g"), []), None)

  /** The test suite's inspection example, inspected as written, fails: it has no keyword-only
      parameters, so the keyword-only defaults are missing altogether. */
  lemma InspectionExampleAsWritten(never: set<string>)
    ensures InspectAsWritten(never, InspectionExample) == Failure(NoKeywordOnlyDefaults)
  {
    InspectAsWrittenAgrees(never, InspectionExample);
  }

  /** The function of the test suite's value test: a required `val`, and `other` defaulting
      to the marker `inject('val')`. */
  const ValueTest: Callable := Function(4, Signature(["val"], [("other", Inject("val", [], map[]))], None, [], None, []), None)

  /** An injector whose only binding is `add_value('val', v)`. */
  function WithVal(v: Value): Injector {
    AddValue(NewInjector(), "val", v, [])
  }

  /** `ValueTest` declares two injection points, both for the name `val`: the implicit one of
      the required parameter and the marker of `other`. */
  lemma ValueTestPoints()
    ensures Inspect(NewInjector().neverInject, ValueTest) == [("val", Implicit("val")), ("other", Implicit("val"))]
  {
    assert Inject("val", [], map[]) == Marker(Implicit("val"));
    assert SignatureOf(Unwrap(ValueTest)) == Signature(["val"], [("other", Marker(Implicit("val")))], None, [], None, []);
    RequiredAndMarkerPoints(NewInjector().neverInject, ValueTest, "val", "other", Implicit("val"));
  }

  /** A signature with one required parameter that is not excluded and one defaulted parameter
      whose default is a marker has exactly those two injection points, in that order. */
  lemma RequiredAndMarkerPoints(never: set<string>, c: Callable, name: string, other: string, p: InjectionPoint)
    requires name !in never && name != other
    requires SignatureOf(Unwrap(c)) == Signature([name], [(other, Marker(p))], None, [], None, [])
    ensures Inspect(never, c) == [(name, Implicit(name)), (other, p)]
  {
    var sig := SignatureOf(Unwrap(c));
    var implicit := AddImplicit([], [name], never);
    assert [name][0] == name && [name][1..] == [];
    assert implicit == AddImplicit(Put([], name, Implicit(name)), [], never);
    var defaults := Reverse(sig.defaulted);
    assert defaults == [(other, Marker(p))] && defaults[1..] == [];
    var both := Put(implicit, other, p);
    assert both == [(name, Implicit(name))] + Put([], other, p);
    assert AddMarkers(implicit, defaults) == AddMarkers(both, []);
    assert InspectSignature(sig, never) == both;
  }

  /** The binding `add_value('val', v)` makes: a bare point named `val` gets `v`. */
  lemma WithValBindsVal(v: Value)
    ensures WithVal(v).neverInject == NewInjector().neverInject && WithVal(v).cache == map[]
    ensures ValueBound(WithVal(v).resolvers, Implicit("val")) && BoundValue(WithVal(v).resolvers, Implicit("val")) == v
  {
  }

  /** After `add_value('val', v)`, calling `ValueTest` with no argument calls it with `val` and
      `other` both exactly `v`, whatever `v` is. */
  lemma ValueIsInjected(fuel: nat, v: Value, calls: seq<Invocation>, oracle: Oracle)
    requires fuel > 0
    ensures CallInject(fuel, State(WithVal(v), calls), ValueTest, [], map[], oracle).result ==
      oracle(ValueTest, [], map["val" := v, "other" := v])
  {
    ValueTestPoints();
    WithValBindsVal(v);
    SameValueInjectedTwice(fuel, State(WithVal(v), calls), ValueTest, "val", "other", v, oracle);
  }

  /** Calling a user function whose two injection points both name the value-bound `name`
      passes that value to both parameters and nothing else. */
  lemma SameValueInjectedTwice(fuel: nat, st: State, func: Callable, name: string, other: string, v: Value, oracle: Oracle)
    requires fuel > 0 && st.injector.cache == map[] && func.Function?
    requires Inspect(st.injector.neverInject, func) == [(name, Implicit(name)), (other, Implicit(name))]
    requires ValueBound(st.injector.resolvers, Implicit(name)) && BoundValue(st.injector.resolvers, Implicit(name)) == v
    ensures CallInject(fuel, st, func, [], map[], oracle).result == oracle(func, [], map[name := v, other := v])
  {
    var points := Inspect(st.injector.neverInject, func);
    CallInjectInjectsValues(fuel, st, func, [], map[], oracle);
    var filled :| InjectsValues(filled, points, st.injector.resolvers, map[])
      && CallInject(fuel, st, func, [], map[], oracle).result == CallLeaf(func, [], filled, oracle);
    BothInjected(filled, st.injector.resolvers, name, other, v);
  }

  /** With `name` and `other` the only injection points, both for `name`, and no keyword
      passed, the keywords are `name=v, other=v`. */
  lemma BothInjected(filled: map<string, Value>, resolvers: map<string, Callable>, name: string, other: string, v: Value)
    requires ValueBound(resolvers, Implicit(name)) && BoundValue(resolvers, Implicit(name)) == v
    requires InjectsValues(filled, [(name, Implicit(name)), (other, Implicit(name))], resolvers, map[])
    ensures filled == map[name := v, other := v]
  {
    var points := [(name, Implicit(name)), (other, Implicit(name))];
    assert Keys(points) == [name, other];
    assert points[0].0 == name && points[1].0 == other;
    assert forall k :: k in filled <==> k == name || k == other;
  }

  /** A class whose `__init__` takes `self` and one keyword-only parameter `n` defaulting to a
      number, so that the keyword-only defaults are present and inspection as written gets
      past them. */
  const SelfOnly: Callable := Class(2, Function(3, Signature(["self"], [], None, [("n", Num(0))], None, []), None))

  /** With the exclusion list as written, `self` is taken for an injection point, both by the
      literal reading of the inspection and by the corrected one the engine uses. */
  lemma SelfIsInjectedAsWritten()
    ensures InspectAsWritten(NewInjector().neverInject, SelfOnly) == Success([("self", Implicit("self"))])
    ensures Inspect(NewInjector().neverInject, SelfOnly) == [("self", Implicit("self"))]
  {
    SelfOnlyPoints();
    InspectAsWrittenAgrees(NewInjector().neverInject, SelfOnly);
  }

  /** The injection points of `SelfOnly` under the exclusion list as written. */
  lemma SelfOnlyPoints()
    ensures Inspect(NewInjector().neverInject, SelfOnly) == [("self", Implicit("self"))]
  {
    assert SignatureOf(Unwrap(SelfOnly)) == Signature(["self"], [], None, [("n", Num(0))], None, []);
    OneRequiredPoint(NewInjector().neverInject, SelfOnly, "self", [("n", Num(0))]);
  }

  /** A signature with one required parameter that is not excluded, and keyword-only defaults
      none of which is a marker, has that parameter's implicit point as its only one. */
  lemma OneRequiredPoint(never: set<string>, c: Callable, name: string, kwonly: Dict<Value>)
    requires name !in never
    requires SignatureOf(Unwrap(c)) == Signature([name], [], None, kwonly, None, [])
    requires forall i :: 0 <= i < |kwonly| ==> !kwonly[i].1.Marker?
    ensures Inspect(never, c) == [(name, Implicit(name))]
  {
    var sig := SignatureOf(Unwrap(c));
    var implicit := AddImplicit([], [name], never);
    assert [name][0] == name && [name][1..] == [];
    assert implicit == AddImplicit(Put([], name, Implicit(name)), [], never);
    assert Reverse(sig.defaulted) == [];
    NoMarkersAdded(implicit, kwonly);
    assert InspectSignature(sig, never) == implicit;
  }

  /** Pairs none of whose values is a marker add no entry. */
  lemma {:induction false} NoMarkersAdded(d: Dict<InjectionPoint>, pairs: Dict<Value>)
    requires forall i :: 0 <= i < |pairs| ==> !pairs[i].1.Marker?
    ensures AddMarkers(d, pairs) == d
    decreases |pairs|
  {
    if pairs != [] {
      assert !pairs[0].1.Marker?;
      NoMarkersAdded(d, pairs[1..]);
    }
  }

  /** ... so calling such a class through an empty injector fails on `self`. */
  lemma SelfOnlyFailsAsWritten(fuel: nat, calls: seq<Invocation>, oracle: Oracle)
    ensures CallInject(fuel, State(NewInjector(), calls), SelfOnly, [], map[], oracle) ==
      Step(Failure(Unresolved("self")), State(NewInjector(), calls))
  {
    var st := State(NewInjector(), calls);
    var points := Inspect(st.injector.neverInject, SelfOnly);
    SelfIsInjectedAsWritten();
    assert Prime(fuel, st, points[0].1, oracle) == Step(Failure(Unresolved("self")), st);
    assert PrimeAll(fuel, st, points, oracle) == Step(Failure(Unresolved("self")), st);
    assert Lookup(fuel, st, SelfOnly, oracle) == Step(Failure(Unresolved("self")), st);
    CallInjectStep(fuel, st, SelfOnly, [], map[], oracle);
  }

  /** With the intended exclusion list the class declares nothing to inject and is simply
      called. */
  lemma SelfOnlyCalledAsIntended(fuel: nat, calls: seq<Invocation>, oracle: Oracle)
    ensures var r := CallInject(fuel, State(NewInjectorIntended(), calls), SelfOnly, [], map[], oracle);
      && r.result == oracle(SelfOnly, [], map[])
      && r.st.calls == calls + [Invocation(SelfOnly, [], map[])]
  {
    var st := State(NewInjectorIntended(), calls);
    assert Inspect(st.injector.neverInject, SelfOnly) == [];
    CallInjectWithoutPoints(fuel, st, SelfOnly, [], map[], oracle);
    InvokeLeaf(fuel, st, SelfOnly, [], map[], oracle);
  }
}

=== FILE: values.dfy ===
/** The Python objects the injector handles: injection points (`_InjectionPoint`), callables
    described by their signature, other values, and the exceptions the engine can raise. */
module Values {
  import opened Wrappers
  import opened Dict

  /** An `_InjectionPoint`: the name of the dependency, and the positional and keyword
      arguments handed to its resolver. */
  datatype InjectionPoint = InjectionPoint(name: string, parameters: seq<Value>, config: map<string, Value>)

  /** A Python object as far as the engine can tell objects apart. */
  datatype Value =
    | Marker(point: InjectionPoint)  // an `_InjectionPoint` instance
    | Fn(callable: Callable)         // a callable
    | Text(text: string)
    | Num(number: int)
    | Object(id: nat)                // any other object, by identity

  /** What reflection reports about a callable's parameter list. Positional parameters are
      split into those without a default (`required`) and those with one (`defaulted`), which
      Python always places after the former. Keyword-only parameters matter only through their
      defaults and annotations, so only the defaulted ones are listed. `annotations` maps a
      parameter name (or "return") to its annotation. */
  datatype Signature = Signature(
    required: seq<string>,
    defaulted: Dict<Value>,
    varargs: Option<string>,
    kwonlyDefaults: Dict<Value>,
    varkw: Option<string>,
    annotations: Dict<Value>)

  /** A callable object.
      - `Function`: user code; `wrapped` is its `__wrapped__` attribute, if any.
      - `Class`: a user class, inspected through its `__init__`.
      - `NullResolver`: the closure `_make_null_resolver(name, provider)` returns.
      - `Constant`: the `lambda: value` that `add_value` registers as provider.
      - `Injecting`: the wrapper `Injector.wrap` returns; its `__wrapped__` is `func`. */
  datatype Callable =
    | Function(id: nat, sig: Signature, wrapped: Option<Callable>)
    | Class(id: nat, init: Callable)
    | NullResolver(name: string, provider: Callable)
    | Constant(value: Value)
    | Injecting(func: Callable)

  /** The exceptions that reach the caller. */
  datatype Error =
    | Unresolved(name: string)      // InjectError: no resolver bound to the point's name
    | NotAResolver(name: string)    // InjectError: configuration given to a provider or value
    | UnknownRemoval(name: string)  // KeyError: `remove` of an unbound name
    | NoKeywordOnlyDefaults         // AttributeError: `None.items()` while inspecting
    | NotCallable                   // TypeError: a resolver returned a non-callable provider
    | MultipleValues                // TypeError: `call_inject` given a keyword `func` or `self`
    | UnexpectedArguments           // TypeError: arguments passed to a value's `lambda: value`
    | RecursionLimit                // RecursionError: resolution nested deeper than the fuel
    | Raised(code: nat)             // anything user code raises

  /** `_InjectionPoint(name, parameters, config)`: an absent or empty argument list becomes
      `()`, an absent or empty configuration becomes `{}`. */
  function MakePoint(name: string, parameters: Option<seq<Value>>, config: Option<map<string, Value>>): (p: InjectionPoint)
    ensures p.name == name
    ensures parameters.None? ==> p.parameters == []
    ensures parameters.Some? ==> p.parameters == parameters.value
    ensures config.None? ==> p.config == map[]
    ensures config.Some? ==> p.config == config.value
  {
    InjectionPoint(name,
      if parameters.Some? then parameters.value else [],
      if config.Some? then config.value else map[])
  }

  /** `inject(name, *args, **kwargs)`: the marker that declares an explicit injection point. */
  function Inject(name: string, args: seq<Value>, kwargs: map<string, Value>): (v: Value)
    ensures v.Marker?
    ensures v.point.name == name && v.point.parameters == args && v.point.config == kwargs
  {
    Marker(MakePoint(name, Some(args), Some(kwargs)))
  }

  /** `_InjectionPoint.__eq__`: compares the attribute dictionaries of two points; any other
      object is unequal. This is exactly structural equality of the marker. */
  function PointEquals(p: InjectionPoint, other: Value): (eq: bool)
    ensures eq <==> other == Marker(p)
    ensures !other.Marker? ==> !eq
  {
    match other
    case Marker(q) => p.name == q.name && p.parameters == q.parameters && p.config == q.config
    case _ => false
  }

  /** A point built without arguments equals the one `inject` builds from the bare name. */
  lemma BareInjectEqualsDefaultPoint(name: string)
    ensures PointEquals(MakePoint(name, None, None), Inject(name, [], map[]))
    ensures PointEquals(MakePoint(name, Some([]), Some(map[])), Inject(name, [], map[]))
  {
  }

  /** Two markers built by `inject` are equal exactly when they were given the same name, the
      same positional arguments and the same keyword arguments. */
  lemma InjectEquality(name: string, args: seq<Value>, kwargs: map<string, Value>, name': string, args': seq<Value>, kwargs': map<string, Value>)
    ensures PointEquals(Inject(name, args, kwargs).point, Inject(name', args', kwargs')) <==>
      name == name' && args == args' && kwargs == kwargs'
  {
  }
}

=== FILE: wrappers.dfy ===
/** Option and Result, the two failure-carrying shapes the model uses. */
module Wrappers {

  /** An optional value, standing for Python's `None` or a present object. */
  datatype Option<+T> = None | Some(value: T)

  /** A computation outcome: a value, or the exception it raised. */
  datatype Result<+T, +E> = Success(value: T) | Failure(error: E)
}
